=== FILE: README.md ===
# Collaborative whiteboard: reconciliation core in Dafny

This project models the in-memory reconciliation logic of a real-time
collaborative whiteboard. Several clients share a canvas of rectangles,
circles and text labels. Shapes are stored in a backend table that clients
watch through a change feed. Four ephemeral broadcast channels carry drag
positions, cursors, shape locks and presence.

Each React provider keeps its state through `setState(prev => ...)`
updaters. Each updater becomes a pure Dafny function from the previous state
and one event to the next state. The model uses these stand-ins:

- The clock is an explicit `now: int` parameter.
- A backend call becomes an explicit success or failure input (`Settle`).
- A message sent on a channel becomes an entry in an output sequence.

The modules, one file each:

- `Wrappers` (`wrappers.dfy`): `Option`.
- `Identity` (`identity.dfy`): the signed-in user, the display-name fallback (`username`, else the email before its first `@`, else `Anonymous`), and `generateColor`. `generateColor` is modelled exactly, including ECMAScript ToInt32 in `hash << 5`. The three providers each carry a copy of these; the model defines them once.
- `Throttle` (`throttle.dfy`): the 50 ms broadcast throttler. It holds the last-send time and one pending slot. A call inside the window overwrites the slot, and a periodic tick flushes it. One generic record serves both drag positions and cursors.
- `CanvasSync` (`canvas_sync.dfy`): the shape list and the ways it changes:
  - the initial load;
  - the change feed: INSERT merges the echo of a local optimistic insert by client `id`; UPDATE and DELETE match on `dbId`;
  - remote drag positions, with self-filtering and drag suppression;
  - optimistic `addShape`/`updateShape`/`deleteShape`, each split into the optimistic update (which returns a `Pending` undo record) and `Settle`, the rollback on failure.
- `ShapeLock` (`shape_lock.dfy`): the advisory lock table. Covers `lockShape`/`unlockShape`, incoming `lock` (last message wins), incoming `unlock` (only the holder's is accepted), sign-out clearing, and the unlock-all sent on channel teardown.
- `CursorTracking` (`cursor_tracking.dfy`): the remote cursor map (one entry per user, own cursor dropped, eviction after 5000 ms) and the throttled cursor broadcast stamped with the send time.
- `Presence` (`presence.dfy`): flattening the presence snapshot into the online list, the informational join/leave events, and the connection flag.
- `PresenceIndicators` (`presence_indicators.dfy`): the other users, the first five shown as initials avatars, the `+N` overflow badge, and the status line shown when the user is alone.
- `Session` (`session.dfy`): how one user looks across the providers: the same name and colour on the avatar, the lock outline and the cursor.
- `Canvas` (`canvas.dfy`): the zoom buttons and their 10 % floor, sidebar drag-and-drop, the shape drag gesture (lock, suppress, broadcast, persist, unlock), lock-dependent stroke selection, and the loading gate.

In three places the code behaves differently from what one would expect of such a board. The model follows the code:

- Teardown unlock-all. One would expect the channel teardown to release every lock the leaving user currently holds. The code iterates the lock table captured when the channel was set up. See "## Findings".
- Throttle coalescing. One would expect a burst inside one 50 ms window to send one message carrying the last call's values. When the window is already open, the code sends the *first* call's values at once. The last call's value waits in the pending slot for the next tick. `Throttle.BurstCoalesces` states exactly this.
- Self-filtering. The cursor and drag handlers drop messages that carry the local user's id. The `lock` and `unlock` handlers have no such filter, so `ShapeLock.OnLock` applies any incoming `lock`.

## Model

| member | source | states |
|---|---|---|
| Identity.BeforeAt | src/contexts/PresenceContext.tsx:60 | `split('@')[0]` is a prefix of the email that contains no `@`, and it stops exactly at the first `@` |
| Identity.DisplayName | src/contexts/PresenceContext.tsx:58-62 | the shown name is never empty: a non-empty username, else a non-empty email prefix, else `Anonymous` |
| Identity.ColorKey | src/contexts/PresenceContext.tsx:61 | the colour is keyed on the username, else the whole email, else the user id |
| Identity.ToInt32 | src/contexts/CursorTrackingContext.tsx:32 | the 32-bit wrap of the shift lies in the signed 32-bit range and is congruent to its input modulo 2^32 |
| Identity.HashBounded | src/contexts/CursorTrackingContext.tsx:30-33 | the hash grows at most linearly with the string length, so double arithmetic stays exact for realistic names |
| Identity.ColorIndex | src/contexts/CursorTrackingContext.tsx:35 | `Math.abs(hash) % 10` is a valid palette index for every hash |
| Identity.GenerateColor | src/contexts/CursorTrackingContext.tsx:24-36 | the colour is always one of the ten palette entries |
| Identity.UserColor | src/contexts/ShapeLockContext.tsx:141 | every user's colour is a palette entry |
| Identity.ColorFollowsKey | src/contexts/ShapeLockContext.tsx:141 | the colour depends only on the colour key: the same non-empty username, or without usernames the same non-empty email, gives the same colour |
| Session.SameLookEverywhere | src/contexts/PresenceContext.tsx:58-62 | the presence entry, the lock entry and the cursor payload of one user carry the same display name and the same colour, generated from the username, email or id |
| Throttle.Submit | src/contexts/CanvasSyncContext.tsx:203-229 | no-op without channel or user; inside the window, nothing is sent and the newest value overwrites the slot; otherwise exactly that value is sent at `now`, and the send time is recorded and the slot cleared |
| Throttle.Tick | src/contexts/CanvasSyncContext.tsx:232-257 | the flush sends if and only if something is pending, the channel and user exist and 50 ms have passed; a send records `now` and clears the slot |
| Throttle.RunIsSpaced | src/contexts/CanvasSyncContext.tsx:209-252 | over any interleaving of calls and ticks, consecutive sends are at least 50 ms apart |
| Throttle.RunLastSend | src/contexts/CanvasSyncContext.tsx:209-252 | after any interleaving of calls and ticks, the throttler's last-send time is the time of the last send made, or the starting time if nothing was sent |
| Throttle.BurstAfterSendIsHeld | src/contexts/CursorTrackingContext.tsx:113-117 | once a send has happened inside a window, every later call in that window is held, and the slot ends with the newest value |
| Throttle.BurstCoalesces | src/contexts/CursorTrackingContext.tsx:107-169 | a burst of calls inside one 50 ms window sends at most one message, and the last value is either that message or still pending |
| CanvasSync.FromRow | src/contexts/CanvasSyncContext.tsx:57-60 | a row becomes its stored shape tagged with the row id as `dbId` |
| CanvasSync.RowRoundTrip | src/contexts/CanvasSyncContext.tsx:311-312 | persisting a committed shape without its `dbId` and reading the row back gives the same shape |
| CanvasSync.FindIndex | src/contexts/CanvasSyncContext.tsx:95 | `findIndex` returns the first position holding the id, or none exactly when no shape has it |
| CanvasSync.Find | src/contexts/CanvasSyncContext.tsx:298 | `find` returns the first shape in the list with that id, or none exactly when no shape has it |
| CanvasSync.ParseRows | src/contexts/CanvasSyncContext.tsx:57-60 | one shape per row, in order, each carrying its row id as `dbId` and the row's stored fields |
| CanvasSync.Load | src/contexts/CanvasSyncContext.tsx:41-71 | loading ends whether the fetch succeeds or fails; on success the list is exactly the parsed rows; on failure the list is unchanged |
| CanvasSync.FailedLoadIsEmpty | src/contexts/CanvasSyncContext.tsx:49-52 | a failed initial fetch leaves an empty, loaded canvas |
| CanvasSync.OnInsert | src/contexts/CanvasSyncContext.tsx:94-107 | the echo of a present id sets the row id as `dbId` on the first shape with that id and leaves every other shape identical; an unknown id is appended; id uniqueness is preserved |
| CanvasSync.InsertIsIdempotent | src/contexts/CanvasSyncContext.tsx:94-107 | receiving the same INSERT twice has the effect of receiving it once |
| CanvasSync.OnUpdate | src/contexts/CanvasSyncContext.tsx:124-128 | exactly the shapes with that `dbId` are replaced; all others, including pending shapes, are unchanged; an unknown id leaves the list identical |
| CanvasSync.OnDeleteKeeps | src/contexts/CanvasSyncContext.tsx:140 | exactly the shapes with that `dbId` disappear; nothing is added; an unknown id leaves the list identical |
| CanvasSync.OnDeleteAppend | src/contexts/CanvasSyncContext.tsx:140 | the filter distributes over concatenation, so the kept shapes keep their order and their number of copies |
| CanvasSync.OnDeleteSingle | src/contexts/CanvasSyncContext.tsx:140 | a single shape is dropped exactly when its `dbId` is the deleted row id |
| CanvasSync.MoveById | src/contexts/CanvasSyncContext.tsx:305-307 | only `x` and `y` of the shapes with that id change, to the new position |
| CanvasSync.RestoreById | src/contexts/CanvasSyncContext.tsx:324-326 | shapes with the original's id become the original; all others are unchanged |
| CanvasSync.RemoveByIdKeeps | src/contexts/CanvasSyncContext.tsx:287 | the result holds exactly the shapes without that id, as a sub-multiset; an absent id changes nothing |
| CanvasSync.RemoveByIdAppend | src/contexts/CanvasSyncContext.tsx:287 | removing by id distributes over concatenation, so the kept shapes keep their order |
| CanvasSync.RemoveUniqueId | src/contexts/CanvasSyncContext.tsx:345 | with unique ids, removing one shape's id cuts out exactly that one position |
| CanvasSync.AddShape | src/contexts/CanvasSyncContext.tsx:259-274 | appends exactly one pending shape (no `dbId`) at the given position, filled blue, green or black by type |
| CanvasSync.UpdateShape | src/contexts/CanvasSyncContext.tsx:296-312 | nothing happens if and only if the shape is missing from the snapshot or its `dbId` is falsy (absent or empty); otherwise the position moves and the stored info is the snapshot shape at the new position |
| CanvasSync.DeleteShape | src/contexts/CanvasSyncContext.tsx:337-345 | same no-op condition as update (missing shape, or absent or empty `dbId`); otherwise the id is gone from the list and the removed shape is remembered |
| CanvasSync.Settle | src/contexts/CanvasSyncContext.tsx:284-363 | success leaves the list alone; on failure an insert is undone by removing that id, an update by putting the pre-call shape back in place, a delete by re-appending the removed shape at the end |
| CanvasSync.AddRollbackRestores | src/contexts/CanvasSyncContext.tsx:284-293 | a failed insert of a fresh id gives back exactly the list from before the call |
| CanvasSync.UpdateRollbackRestores | src/contexts/CanvasSyncContext.tsx:321-334 | with unique ids, a failed update gives back exactly the list from before the call |
| CanvasSync.DeleteRollbackRestoresContents | src/contexts/CanvasSyncContext.tsx:354-363 | a failed delete restores the count and the contents (as a multiset), with the removed shape now last |
| CanvasSync.InsertEchoMerges | src/contexts/CanvasSyncContext.tsx:93-102 | the echo of a local insert adds no second shape; the pending shape gains its `dbId` |
| CanvasSync.UpdateEchoIsNoOp | src/contexts/CanvasSyncContext.tsx:124-128 | the change-feed echo of a local update leaves the optimistic list unchanged |
| CanvasSync.DeleteEchoIsNoOp | src/contexts/CanvasSyncContext.tsx:140 | the change-feed echo of a local delete leaves the optimistic list unchanged |
| CanvasSync.AddEchoScenario | src/contexts/CanvasSyncContext.tsx:259-294 | add on an empty canvas, succeed, receive the echo: still one shape, now with its `dbId` |
| CanvasSync.Mount | src/contexts/CanvasSyncContext.tsx:32-37 | a freshly mounted provider has no shapes, is loading, drags nothing here and has a fresh throttler (last send 0, nothing pending) |
| CanvasSync.OnDragMove | src/contexts/CanvasSyncContext.tsx:167-187 | own messages and the shape dragged here are ignored; otherwise only `x`/`y` of shapes with that id change |
| CanvasSync.SetLocallyDragging | src/contexts/CanvasSyncContext.tsx:366-368 | the dragged-here mark becomes the given id (or none), and nothing else in the provider changes |
| CanvasSync.DragSuppressionLifts | src/contexts/CanvasSyncContext.tsx:176-186 | while the shape is flagged as dragged here, a remote position is dropped; once the flag is cleared, it applies |
| CanvasSync.DragMessages | src/contexts/CanvasSyncContext.tsx:216-225 | each throttler send becomes one `drag-move` payload stamped with the sender's id |
| CanvasSync.BroadcastShapePosition | src/contexts/CanvasSyncContext.tsx:203-229 | a `drag-move` with the given position is sent at once if and only if channel and user exist and 50 ms have passed since the last send; otherwise nothing is sent (the throttler holds the position); the shapes are untouched |
| CanvasSync.FlushDragPosition | src/contexts/CanvasSyncContext.tsx:232-257 | the interval sends the pending position if and only if the window has passed and channel and user exist |
| ShapeLock.LockFor | src/contexts/ShapeLockContext.tsx:137-142 | the recorded lock carries the user's id, display name and palette colour |
| ShapeLock.GetShapeLock | src/contexts/ShapeLockContext.tsx:187-193 | `getShapeLock` is defined exactly when `isLocked` holds, and returns the recorded entry |
| ShapeLock.OnLock | src/contexts/ShapeLockContext.tsx:66-70 | an incoming `lock` overwrites that shape's entry unconditionally and leaves all other entries untouched |
| ShapeLock.OnUnlock | src/contexts/ShapeLockContext.tsx:75-86 | an incoming `unlock` removes the entry only when its sender is the holder; otherwise the table is identical |
| ShapeLock.LockShape | src/contexts/ShapeLockContext.tsx:112-161 | with no channel or user: granted and nothing changes; free shape: recorded for the user and one `lock` sent; own lock: granted silently; foreign lock: refused; no existing entry is ever replaced |
| ShapeLock.UnlockShape | src/contexts/ShapeLockContext.tsx:163-185 | removes the entry and sends one `unlock` exactly when the local user holds it; otherwise nothing changes and nothing is sent |
| ShapeLock.PeersAgreeAfterBroadcast | src/contexts/ShapeLockContext.tsx:136-157 | a peer that agreed before a lock or unlock call agrees after receiving what the call sent |
| ShapeLock.LockUnlockRoundTrip | src/contexts/ShapeLockContext.tsx:112-185 | locking a free shape and unlocking it gives back the original table, with exactly one `lock` and one `unlock` sent |
| ShapeLock.HolderKeepsLock | src/contexts/ShapeLockContext.tsx:123-134 | another user can neither take, locally release nor remotely release a held lock |
| ShapeLock.OnAuthChange | src/contexts/ShapeLockContext.tsx:43-45 | signing out empties the lock table; a new session keeps it (the provider's sign-out branch, which the canvas page does not reach: see "## Left out") |
| ShapeLock.TeardownUnlocks | src/contexts/ShapeLockContext.tsx:96-106 | every message is an `unlock` by the leaving user of a listed entry that user holds, and every such entry gets one |
| ShapeLock.TeardownUnlocksDistinct | src/contexts/ShapeLockContext.tsx:98-106 | with each key enumerated once, no shape is unlocked twice: the messages are pairwise distinct |
| ShapeLock.ReceiveTeardownUnlocks | src/contexts/ShapeLockContext.tsx:98-106 | a peer agreeing with the iterated table loses exactly the listed entries the leaving user holds |
| ShapeLock.TeardownReleasesAll | src/contexts/ShapeLockContext.tsx:97-106 | teardown over the current table releases every lock of the leaving user and keeps all others |
| ShapeLock.TeardownOverCapturedTable | src/contexts/ShapeLockContext.tsx:98-106 | the teardown iterates the table its effect captured at sign-in, the provider's initial empty table (:40), because the canvas page mounts the providers only while a user is signed in; it sends nothing, so a lock taken later survives the sign-out |
| CursorTracking.OnCursorMove | src/contexts/CursorTrackingContext.tsx:63-74 | the user's own cursor never enters the map; another user's cursor replaces that user's single entry, and other entries are untouched |
| CursorTracking.Cleanup | src/contexts/CursorTrackingContext.tsx:84-99 | removes exactly the entries more than 5000 ms old; when none is stale, the map is returned unchanged |
| CursorTracking.EvictionBoundary | src/contexts/CursorTrackingContext.tsx:91 | a cursor 6000 ms old is evicted; cursors 5000 ms and 4000 ms old are kept |
| CursorTracking.Stamp | src/contexts/CursorTrackingContext.tsx:120-127 | the payload carries the user's id, display name and colour, the position, and the send time as timestamp |
| CursorTracking.BroadcastCursor | src/contexts/CursorTrackingContext.tsx:107-137 | no-op without channel or user; the cursor is sent at once, stamped with `now`, if and only if channel and user exist and 50 ms have passed since the last send, after which the slot is empty |
| CursorTracking.FlushCursor | src/contexts/CursorTrackingContext.tsx:141-166 | the pending position is sent, stamped with the flush time, if and only if the window has passed and channel and user exist |
| CursorTracking.SentCursorLifetime | src/contexts/CursorTrackingContext.tsx:91 | a cursor sent at time t and received by another user survives the cleanups up to t + 5000 ms and is gone after that, with the cleanup time read on the receiver's clock and that clock agreeing with the sender's |
| CursorTracking.ClockSkewLifetime | src/contexts/CursorTrackingContext.tsx:85-91 | the timestamp is the sender's clock and the eviction test the receiver's: with the receiver d ms ahead, the cursor survives only while at most 5000 − d ms have passed since the send, and with d ≥ 5000 it is gone at every cleanup after the send |
| CursorTracking.OnAuthChange | src/contexts/CursorTrackingContext.tsx:49-50 | signing out empties the cursor map; a new session keeps it (the provider's sign-out branch, which the canvas page does not reach: see "## Left out") |
| CursorTracking.SignedOutForgetsCursors | src/contexts/CursorTrackingContext.tsx:49-50 | after signing out no earlier cursor survives: the cleanup finds nothing, and the next received cursor is the only entry (the provider's sign-out branch, which the canvas page does not reach: see "## Left out") |
| Presence.CurrentUser | src/contexts/PresenceContext.tsx:58-62 | the tracked entry has the user's id, a non-empty display name and a palette colour |
| Presence.UsersOf | src/contexts/PresenceContext.tsx:74-78 | presences without a user are skipped; a user is listed exactly when a presence carries it; a single presence gives its user or nothing |
| Presence.UsersOfAppend | src/contexts/PresenceContext.tsx:74-78 | the users of two runs of presences are those of the first run followed by those of the second, so with the single-presence case the list keeps presence order |
| Presence.Flatten | src/contexts/PresenceContext.tsx:72-82 | the online list is never longer than the number of presences |
| Presence.FlattenIsUsersOfConcat | src/contexts/PresenceContext.tsx:72-82 | the nested loop yields the users of all presences in snapshot order |
| Presence.OnlineMembership | src/contexts/PresenceContext.tsx:73-79 | a user is online exactly when some key of the snapshot has a presence carrying that user |
| Presence.FullSnapshotLength | src/contexts/PresenceContext.tsx:75-77 | when every presence carries a user, the list has one entry per presence |
| Presence.Step | src/contexts/PresenceContext.tsx:66-95 | `sync` replaces the list; join and leave change nothing; only `SUBSCRIBED` raises the flag |
| Presence.ConnectedOnlyBySubscribed | src/contexts/PresenceContext.tsx:94-95 | no event sequence without a `SUBSCRIBED` status raises the connection flag |
| Presence.SyncReplaces | src/contexts/PresenceContext.tsx:72-82 | after a `sync`, the previous online list has no influence on the result |
| Presence.OnAuthChange | src/contexts/PresenceContext.tsx:42-45 | signing out empties the online list and clears the flag; a new session keeps the state (the provider's sign-out branch, which the canvas page does not reach: see "## Left out") |
| PresenceIndicators.OtherUsers | src/components/PresenceIndicators.tsx:16 | with nobody signed in every online user is kept; the result is never longer than the list |
| PresenceIndicators.OtherUsersMembers | src/components/PresenceIndicators.tsx:16 | keeps exactly the users whose id is not the local user's, as a sub-multiset of the input |
| PresenceIndicators.OtherUsersAppend | src/components/PresenceIndicators.tsx:16 | the filter distributes over concatenation, so the kept users keep their order and their number of copies (a user online in two tabs stays listed twice) |
| PresenceIndicators.OtherUsersSingle | src/components/PresenceIndicators.tsx:16 | a single user is kept exactly when its id is not the local user's |
| PresenceIndicators.Split | src/components/PresenceIndicators.tsx:63 | `split(' ')` yields at least one word, and no word contains a space |
| PresenceIndicators.SplitJoin | src/components/PresenceIndicators.tsx:63 | joining the split words with spaces gives back the name |
| PresenceIndicators.FirstCharsAreWordStarts | src/components/PresenceIndicators.tsx:62-65 | the first characters of the split words are exactly the word-start characters, in order |
| PresenceIndicators.Upper | src/components/PresenceIndicators.tsx:66 | uppercasing maps each of a-z to the capital 32 code points below it and leaves every other character unchanged |
| PresenceIndicators.Initials | src/components/PresenceIndicators.tsx:62-67 | at most two characters, each the uppercased start of a word, in order |
| PresenceIndicators.EmptyWordsIgnored | src/components/PresenceIndicators.tsx:62-65 | doubled and leading spaces change no initials |
| PresenceIndicators.AvatarsOf | src/components/PresenceIndicators.tsx:61-98 | one avatar per shown user, with that user's id, initials and colour |
| PresenceIndicators.Indicators | src/components/PresenceIndicators.tsx:16-147 | the status line appears exactly when nobody else is online, worded by the connection flag; otherwise the first min(5, n) other users are shown in order, never the local user, and the `+N` badge appears exactly when n > 5, with shown + N = n |
| PresenceIndicators.SignedOutShowsConnecting | src/components/PresenceIndicators.tsx:21-38 | after signing out the strip shows the "connecting" status line (the provider's sign-out branch, which the canvas page does not reach: see "## Left out") |
| Canvas.ZoomIn | src/components/Canvas.tsx:41-43 | zoom in raises the zoom by one step of 0.1 |
| Canvas.ZoomOut | src/components/Canvas.tsx:45-47 | zoom out subtracts 0.1 but never goes below 0.1 |
| Canvas.ZoomInOutRoundTrip | src/components/Canvas.tsx:41-47 | zoom out undoes zoom in from any zoom at or above the floor; zoom in undoes zoom out unless the floor clipped it, in which case it lands one step above the floor |
| Canvas.ZoomStaysAboveMinimum | src/components/Canvas.tsx:30-47 | from any zoom of at least 10 %, including the initial 100 %, no sequence of presses goes below 10 % |
| Canvas.SidebarDragStart | src/components/Canvas.tsx:160 | the sidebar drag start records the shape type and changes nothing else |
| Canvas.SidebarDragEnd | src/components/Canvas.tsx:155-158 | a container drag end always clears the dragged type and changes nothing else |
| Canvas.SidebarDragCancelled | src/components/Canvas.tsx:155-171 | a sidebar drag that ends without a drop leaves the board as it was, and while it lasts neither the stage nor any shape is draggable |
| Canvas.Drop | src/components/Canvas.tsx:142-154 | with no dragged type nothing happens; otherwise the shapes become those of `addShape` with the dragged type, the drop point and the user's id (when there is a drop point), and the dragged type is cleared either way; locks, zoom, loading flag, drag mark and throttler are unchanged |
| Canvas.DropThenFailedInsertRestores | src/components/Canvas.tsx:142-154 | a drop adds one shape of the dragged type; if the backend refuses the insert, the rollback gives back exactly the shapes from before the drop |
| Canvas.ShapeDragStart | src/components/Canvas.tsx:200-206 | requests the lock and marks the shape as dragged here, whatever the lock answer; nothing else on the board changes |
| Canvas.ShapeDragMove | src/components/Canvas.tsx:207-211 | the drag position is sent at once, as one message stamped with the user's id, exactly when the drag channel and a user exist and 50 ms have passed since the last send; otherwise it is held for the interval flush; only the throttler changes, so shapes and locks are untouched |
| Canvas.ShapeDragEnd | src/components/Canvas.tsx:212-219 | persists the final position with the `updateShape` of the last render, whose shape list may be stale (or does nothing when the shape is not ready in it), releases the local user's lock, and clears the dragged-here mark; the sidebar drag, zoom, loading flag and throttler are unchanged |
| Canvas.DragGestureReleases | src/components/Canvas.tsx:200-219 | a drag of a free shape ends with the mark cleared and the lock table as before, having sent one `lock` and one `unlock` |
| Canvas.DragOfForeignLockedShape | src/components/Canvas.tsx:200-219 | a drag of a shape another user holds goes ahead, leaves that lock untouched and sends no lock message |
| Canvas.StrokeFor | src/components/Canvas.tsx:197-266 | a locked rect or circle is stroked in the holder's colour at width 4, an unlocked one `#666` at width 2; locked text in the holder's colour at width 2, unlocked text not at all |
| Canvas.Sprites | src/components/Canvas.tsx:184-292 | one sprite per shape, in list order, with its position, fill, lock stroke and draggability |
| Canvas.Render | src/components/Canvas.tsx:111-168 | while loading, no shapes are drawn; afterwards one sprite per shape in list order, with its id, kind, position, fill and lock stroke, and the stage and every shape are draggable exactly when no sidebar drag is in progress |
| Canvas.DragShowsLockStroke | src/components/Canvas.tsx:194-219 | dragging a free rect or circle outlines it in the dragging user's colour at width 4; the drag end puts back the grey width-2 outline |
| Canvas.SignedOutDrawsUnlocked | src/contexts/ShapeLockContext.tsx:43-45 | after signing out every shape is drawn with its unlocked outline (the provider's sign-out branch, which the canvas page does not reach: see "## Left out") |

## Left out

- Backend I/O: table queries, channel `send`/`subscribe`/`track`/`untrack`, and the change-feed transport. Each persistence call is a success/failure input to `CanvasSync.Settle`. Each send is an entry in an output sequence. The `select` error and a thrown exception both appear as `FetchFailed`.
- Timers and the clock: `setInterval` and `Date.now` become an explicit `now`, and each interval firing is a separate `Tick`/`Cleanup` call. Nothing is assumed about how often ticks happen.
- Random shape ids: the fresh `shape-<time>-<random>` id is a parameter of `AddShape`. Freshness is a precondition only of the lemmas that need it.
- React scheduling. `lockShape` computes its answer inside a state updater; the model runs that updater synchronously. `updateShape` and `deleteShape` read a possibly stale `shapes` closure, modelled as an explicit `snapshot` argument next to the `prev` the updater receives. The drag end passes its own `snapshot` through. The teardown unlock-all iterates the table captured at channel setup (see "## Findings").
- Channel lifecycle on identity change: creating and unsubscribing channels and reconnection are not modelled. Only the state clearing on sign-out is (`OnAuthChange` in three modules).
- Map enumeration order: the order in which a JavaScript `Map` and `Object.values` enumerate their entries is given as input. The teardown takes it as `keys`; the presence snapshot is a sequence of per-key lists.
- CanvasSync.FromRow: a stored `shape_info` is modelled without a `dbId` key of its own. The client never writes one, and one would override the row id in `{dbId, ...shape_info}`.
- Identity.Hash: exact only while the double-precision intermediate stays below 2^53. `Identity.HashBounded` shows this holds for strings of up to about four million characters. Longer strings would round, which is not modelled.
- Character model: JavaScript strings are UTF-16 code units; the model's strings are Dafny characters. `charCodeAt`, `n[0]` and `slice(0, 2)` therefore differ for characters outside the Basic Multilingual Plane.
- PresenceIndicators.Upper: only ASCII `a`-`z` are uppercased. The locale-independent Unicode case mapping of `toUpperCase` for other letters is not modelled.
- Floating-point coordinate math: coordinates and zoom are real numbers. The model leaves out screen-to-world conversion, the pointer-to-world conversion before `broadcastCursor`, grid generation, and rounding in the zoom and coordinate displays. Drop positions arrive in world coordinates (`None` when the container has no bounding box).
- Stage panning (`position`) and the viewport context: these are plain state holders with no logic beyond storing the latest value.
- Hover state of the avatars and the tooltip text: pure presentation.
- Rendering constants: rect size, circle radius, text font and grid colours.
- Pages, auth forms and the cursor overlay: UI only. The overlay's self-filter repeats the one in `CursorTracking.OnCursorMove`.
- The route guard (src/App.tsx:18-25, src/components/ProtectedRoute.tsx:26-30) is not modelled as code, but it decides how long the providers live. The canvas page and its four providers are mounted only while a user is signed in, so each provider mounts at sign-in and unmounts at sign-out. Under it the providers' `!user` branches never run while the canvas is shown: ShapeLockContext.tsx:43-45, PresenceContext.tsx:42-45 and CursorTrackingContext.tsx:49-50. The three `OnAuthChange` members and the lemmas `CursorTracking.SignedOutForgetsCursors`, `PresenceIndicators.SignedOutShowsConnecting` and `Canvas.SignedOutDrawsUnlocked` describe those branches as written, not a state this app reaches. Sign-out itself is the unmount, whose lock teardown is the subject of "## Findings".
- CursorTracking.SentCursorLifetime: sender and receiver clocks are assumed to agree. The timestamp is the sender's `Date.now()` and the eviction test reads the receiver's, so `later` is a receiver-clock time. `CursorTracking.ClockSkewLifetime` states the effect of a skew between them. Skew itself is not otherwise modelled.
- The static `frontend/` prototype and the mock `api/*.ts` HTTP endpoints: neither holds reconciliation logic.

## Findings

| source | as written | input that shows it | evidently intended | confidence | as-written member | corrected member |
|---|---|---|---|---|---|---|
| src/contexts/ShapeLockContext.tsx:96-106 | the teardown unlocks the entries of the lock table captured when the channel effect ran; the canvas page mounts the providers only while a user is signed in (src/components/ProtectedRoute.tsx:26-30), so that effect runs at sign-in and captures the initial empty table of line 40 | user signs in (table empty), locks a free shape `s`, signs out: no `unlock` is sent and peers keep `s` locked by a user who is gone | unlock every shape the leaving user holds in the current table | medium, not executed | ShapeLock.TeardownOverCapturedTable | ShapeLock.TeardownReleasesAll |

=== FILE: canvas.dfy ===
/**
 * The canvas surface's own logic: the zoom buttons, the sidebar drag-and-drop
 * that creates shapes, the shape drag gesture (lock, suppress remote updates,
 * broadcast, persist, unlock), and what gets drawn. Screen-to-world conversion
 * and grid drawing are left out; drop positions arrive in world coordinates.
 */
module Canvas {
  import opened Wrappers
  import opened Identity
  import opened CanvasSync
  import opened ShapeLock
  import Throttle

  /** The zoom buttons step by this much; zoom never goes below `MinZoom`. */
  const ZoomStep: real := 0.1
  const MinZoom: real := 0.1
  const InitialZoom: real := 1.0

  /** `prev + 0.1` */
  function ZoomIn(z: real): (r: real)
    ensures r > z
    ensures r - z == ZoomStep
  {
    z + ZoomStep
  }

  /** `Math.max(0.1, prev - 0.1)` */
  function ZoomOut(z: real): (r: real)
    ensures r >= MinZoom
    ensures z - ZoomStep >= MinZoom ==> r == z - ZoomStep
    ensures z - ZoomStep < MinZoom ==> r == MinZoom
  {
    if MinZoom > z - ZoomStep then MinZoom else z - ZoomStep
  }

  /** Zooming out undoes zooming in, and zooming in undoes zooming out away from the floor. */
  lemma ZoomInOutRoundTrip(z: real)
    ensures z >= MinZoom ==> ZoomOut(ZoomIn(z)) == z
    ensures z - ZoomStep >= MinZoom ==> ZoomIn(ZoomOut(z)) == z
    ensures z - ZoomStep < MinZoom ==> ZoomIn(ZoomOut(z)) == MinZoom + ZoomStep
  {
  }

  datatype ZoomButton = In | Out

  function Zoom(z: real, presses: seq<ZoomButton>): real
    decreases |presses|
  {
    if presses == [] then z
    else Zoom(if presses[0] == In then ZoomIn(z) else ZoomOut(z), presses[1..])
  }

  /** Starting from 100 %, no sequence of button presses takes zoom below 10 %. */
  lemma {:induction false} ZoomStaysAboveMinimum(z: real, presses: seq<ZoomButton>)
    requires z >= MinZoom
    ensures Zoom(z, presses) >= MinZoom
    decreases |presses|
  {
    if presses != [] {
      var next := if presses[0] == In then ZoomIn(z) else ZoomOut(z);
      ZoomStaysAboveMinimum(next, presses[1..]);
    }
  }

  /**
   * The canvas component's state together with the two providers it drives:
   * the sync engine and the lock table; `draggingType` is the shape type being
   * dragged from the sidebar, if any.
   */
  datatype Board = Board(sync: Engine, locks: LockTable, draggingType: Option<ShapeType>, zoom: real)

  /** What the canvas sees of the session: the user and whether each channel exists. */
  datatype Env = Env(user: Option<User>, lockChannel: bool, dragChannel: bool)

  function UserId(env: Env): Option<string>
  {
    match env.user
    case Some(u) => Some(u.id)
    case None => None
  }

  /** The sidebar's drag start records the shape type; nothing else changes. */
  function SidebarDragStart(b: Board, kind: ShapeType): (r: Board)
    ensures r.draggingType == Some(kind)
    ensures r.sync == b.sync && r.locks == b.locks && r.zoom == b.zoom
  {
    b.(draggingType := Some(kind))
  }

  /** The container's drag end clears the type, whether or not a drop happened. */
  function SidebarDragEnd(b: Board): (r: Board)
    ensures r.draggingType.None?
    ensures r.(draggingType := b.draggingType) == b
  {
    b.(draggingType := None)
  }

  /** A drop: what it did to the board and the insert it is waiting on, if any. */
  datatype Dropped = Dropped(board: Board, pending: Option<Pending>)

  /**
   * A drop on the canvas at world position `at` (`None` when the container has
   * no bounding box). With no sidebar drag in progress nothing happens;
   * otherwise a shape of the dragged type is added with the fresh id `newId`,
   * and the dragged type is cleared either way.
   */
  function Drop(env: Env, b: Board, at: Option<(real, real)>, newId: string): (r: Dropped)
    ensures r.board.draggingType.None?
    ensures b.draggingType.None? ==> r == Dropped(b, None)
    ensures r.board.(sync := b.sync, draggingType := b.draggingType) == b
    ensures r.board.sync == b.sync.(shapes := r.board.sync.shapes)
    ensures r.pending.None? ==> r.board.sync == b.sync
    ensures r.pending.Some? <==> b.draggingType.Some? && at.Some?
    ensures r.pending.Some? ==>
              var o := AddShape(b.sync.shapes, newId, b.draggingType.value, at.value.0, at.value.1, UserId(env));
              r.board.sync.shapes == o.shapes && r.pending == Some(o.pending)
    ensures r.pending.Some? ==>
              && r.pending.value.PendingInsert?
              && r.board.sync.shapes == b.sync.shapes + [r.pending.value.shape]
              && r.pending.value.shape.kind == b.draggingType.value
              && r.pending.value.shape.id == newId
              && (r.pending.value.shape.x, r.pending.value.shape.y) == at.value
              && r.pending.value.shape.dbId.None?
  {
    match b.draggingType
    case None => Dropped(b, None)
    case Some(kind) =>
      match at
      case None => Dropped(b.(draggingType := None), None)
      case Some(p) =>
        var o := AddShape(b.sync.shapes, newId, kind, p.0, p.1, UserId(env));
        Dropped(b.(sync := b.sync.(shapes := o.shapes), draggingType := None), Some(o.pending))
  }

  /**
   * A sidebar drag that ends without a drop is cancelled without a trace, and
   * while it is in progress neither the stage nor any shape can be dragged.
   */
  lemma SidebarDragCancelled(b: Board, kind: ShapeType)
    requires b.draggingType.None?
    ensures SidebarDragEnd(SidebarDragStart(b, kind)) == b
    ensures var v := Render(SidebarDragStart(b, kind));
            v.Stage? ==> !v.draggable && forall i :: 0 <= i < |v.sprites| ==> !v.sprites[i].draggable
  {
  }

  /**
   * A sidebar drag dropped on the canvas adds one shape of the dragged type at
   * the drop point; if the backend then refuses the insert, the rollback gives
   * back exactly the shapes from before the drop.
   */
  lemma DropThenFailedInsertRestores(env: Env, b: Board, kind: ShapeType, x: real, y: real, newId: string)
    requires !HasId(b.sync.shapes, newId)
    ensures var d := Drop(env, SidebarDragStart(b, kind), Some((x, y)), newId);
            && d.pending.Some?
            && |d.board.sync.shapes| == |b.sync.shapes| + 1
            && d.pending.value.shape.kind == kind
            && Settle(d.board.sync.shapes, d.pending.value, false) == b.sync.shapes
  {
    AddRollbackRestores(b.sync.shapes, newId, kind, x, y, UserId(env));
  }

  /** A gesture's effect on the board and the lock broadcasts it sent. */
  datatype Gesture = Gesture(board: Board, lockMsgs: seq<LockMsg>)

  /**
   * A shape's drag start: asks for the lock (the answer is ignored: the drag
   * goes ahead either way) and marks the shape as dragged here.
   */
  function ShapeDragStart(env: Env, b: Board, id: string): (r: Gesture)
    ensures r.board.sync.dragging == Some(id)
    ensures var l := LockShape(env.lockChannel, env.user, b.locks, id);
            r.board.locks == l.table && r.lockMsgs == l.sent
    ensures r.board.sync.shapes == b.sync.shapes && r.board.draggingType == b.draggingType
    ensures r.board.(sync := b.sync, locks := b.locks) == b
    ensures r.board.sync == b.sync.(dragging := Some(id))
  {
    var l := LockShape(env.lockChannel, env.user, b.locks, id);
    Gesture(b.(sync := SetLocallyDragging(b.sync, Some(id)), locks := l.table), l.sent)
  }

  /** A shape's drag move: broadcasts its position through the drag throttle. */
  function ShapeDragMove(env: Env, b: Board, now: int, id: string, x: real, y: real): (r: (Board, seq<DragMsg>))
    ensures r.0.sync.throttle == Throttle.Submit(b.sync.throttle, env.dragChannel && env.user.Some?, now, DragPos(id, x, y)).next
    ensures r.0 == b.(sync := b.sync.(throttle := r.0.sync.throttle))
    ensures |r.1| <= 1
    ensures r.1 != [] <==> env.dragChannel && env.user.Some? && b.sync.throttle.lastSend + Throttle.ThrottleMs <= now
    ensures r.1 != [] ==> r.1 == [DragMsg(id, x, y, env.user.value.id)]
    ensures r.0.sync.shapes == b.sync.shapes && r.0.locks == b.locks
  {
    var s := BroadcastShapePosition(b.sync, env.dragChannel, env.user, now, id, x, y);
    (b.(sync := s.engine), s.sent)
  }

  /** A drag end: the board, the update it is waiting on (none if the shape is not ready), and lock broadcasts. */
  datatype Ended = Ended(board: Board, pending: Option<Pending>, lockMsgs: seq<LockMsg>)

  /**
   * A shape's drag end: persists the final position (`updateShape`), releases
   * the lock (`unlockShape`) and clears the dragged-here mark. `snapshot` is
   * the shape list of the render whose `updateShape` closure the handler
   * calls; the optimistic move is applied to the current list.
   */
  function ShapeDragEnd(env: Env, b: Board, snapshot: seq<Shape>, id: string, x: real, y: real): (r: Ended)
    ensures r.board.sync.dragging.None?
    ensures var u := UpdateShape(snapshot, b.sync.shapes, id, x, y);
            && (u.None? ==> r.board.sync.shapes == b.sync.shapes && r.pending.None?)
            && (u.Some? ==> r.board.sync.shapes == u.value.shapes && r.pending == Some(u.value.pending))
    ensures var l := UnlockShape(env.lockChannel, env.user, b.locks, id);
            r.board.locks == l.table && r.lockMsgs == l.sent
    ensures env.lockChannel && env.user.Some? ==> !(id in r.board.locks && r.board.locks[id].userId == env.user.value.id)
    ensures r.board.(sync := b.sync, locks := b.locks) == b
    ensures r.board.sync == b.sync.(shapes := r.board.sync.shapes, dragging := None)
  {
    var u := UpdateShape(snapshot, b.sync.shapes, id, x, y);
    var shapes := if u.Some? then u.value.shapes else b.sync.shapes;
    var l := UnlockShape(env.lockChannel, env.user, b.locks, id);
    var sync := SetLocallyDragging(b.sync.(shapes := shapes), None);
    Ended(b.(sync := sync, locks := l.table), if u.Some? then Some(u.value.pending) else None, l.sent)
  }

  /**
   * A drag from start to end leaves nothing behind: the dragged-here mark is
   * cleared, and a lock taken by the start on a free shape is released again,
   * with one `lock` and one `unlock` broadcast.
   */
  lemma DragGestureReleases(env: Env, b: Board, snapshot: seq<Shape>, id: string, x: real, y: real)
    requires env.lockChannel && env.user.Some?
    requires id !in b.locks
    ensures var started := ShapeDragStart(env, b, id);
            var ended := ShapeDragEnd(env, started.board, snapshot, id, x, y);
            && started.board.sync.dragging == Some(id)
            && ended.board.sync.dragging.None?
            && ended.board.locks == b.locks
            && started.lockMsgs + ended.lockMsgs == [LockMsg(id, LockFor(env.user.value)), UnlockMsg(id, env.user.value.id)]
  {
  }

  /** A drag of a shape someone else holds: the drag still runs, and that user's lock is untouched throughout. */
  lemma DragOfForeignLockedShape(env: Env, b: Board, snapshot: seq<Shape>, id: string, x: real, y: real)
    requires env.user.Some?
    requires id in b.locks && b.locks[id].userId != env.user.value.id
    ensures var started := ShapeDragStart(env, b, id);
            var ended := ShapeDragEnd(env, started.board, snapshot, id, x, y);
            && started.board.sync.dragging == Some(id)
            && started.board.locks == b.locks
            && ended.board.locks == b.locks
            && started.lockMsgs == [] && ended.lockMsgs == []
  {
  }

  // ---------------------------------------------------------------------------
  // Rendering

  /** A shape's outline: colour (`None` is no stroke colour) and width. */
  datatype Stroke = Stroke(color: Option<string>, width: nat)

  const UnlockedStroke: string := "#666"

  /**
   * The outline of a shape: a locked rect or circle in the holder's colour at
   * width 4, an unlocked one grey at width 2; text only gets an outline (width
   * 2) while locked.
   */
  function StrokeFor(kind: ShapeType, locks: LockTable, id: string): (s: Stroke)
    ensures kind != Text && IsLocked(locks, id) ==> s == Stroke(Some(locks[id].color), 4)
    ensures kind != Text && !IsLocked(locks, id) ==> s == Stroke(Some(UnlockedStroke), 2)
    ensures kind == Text && IsLocked(locks, id) ==> s == Stroke(Some(locks[id].color), 2)
    ensures kind == Text && !IsLocked(locks, id) ==> s == Stroke(None, 0)
  {
    var locked := IsLocked(locks, id);
    var lock := GetShapeLock(locks, id);
    match kind
    case Text => Stroke(if locked && lock.Some? then Some(lock.value.color) else None, if locked then 2 else 0)
    case _ => Stroke(Some(if locked && lock.Some? then lock.value.color else UnlockedStroke), if locked then 4 else 2)
  }

  /** A drawn shape. */
  datatype Sprite = Sprite(id: string, kind: ShapeType, x: real, y: real, fill: string, stroke: Stroke, draggable: bool)

  /** The loading screen, or the stage with its shapes in list order. */
  datatype View = LoadingScreen | Stage(draggable: bool, sprites: seq<Sprite>)

  function Sprites(shapes: seq<Shape>, locks: LockTable, draggable: bool): (r: seq<Sprite>)
    ensures |r| == |shapes|
    ensures forall i :: 0 <= i < |shapes| ==>
              r[i] == Sprite(shapes[i].id, shapes[i].kind, shapes[i].x, shapes[i].y, shapes[i].fill,
                             StrokeFor(shapes[i].kind, locks, shapes[i].id), draggable)
  {
    if shapes == [] then []
    else
      var s := shapes[0];
      [Sprite(s.id, s.kind, s.x, s.y, s.fill, StrokeFor(s.kind, locks, s.id), draggable)] + Sprites(shapes[1..], locks, draggable)
  }

  /**
   * What the canvas draws. While loading, no shape at all; afterwards one
   * sprite per shape, and the stage and every shape are draggable exactly when
   * no sidebar drag is in progress.
   */
  function Render(b: Board): (v: View)
    ensures v.LoadingScreen? <==> b.sync.isLoading
    ensures v.Stage? ==> v.draggable == b.draggingType.None?
    ensures v.Stage? ==> |v.sprites| == |b.sync.shapes|
    ensures v.Stage? ==> forall i :: 0 <= i < |v.sprites| ==>
              && v.sprites[i].draggable == b.draggingType.None?
              && v.sprites[i].id == b.sync.shapes[i].id
              && v.sprites[i].kind == b.sync.shapes[i].kind && v.sprites[i].fill == b.sync.shapes[i].fill
              && v.sprites[i].x == b.sync.shapes[i].x && v.sprites[i].y == b.sync.shapes[i].y
              && v.sprites[i].stroke == StrokeFor(b.sync.shapes[i].kind, b.locks, b.sync.shapes[i].id)
  {
    if b.sync.isLoading then LoadingScreen
    else Stage(b.draggingType.None?, Sprites(b.sync.shapes, b.locks, b.draggingType.None?))
  }

  /**
   * The visible sign of a lock: dragging a free rectangle or circle outlines it
   * in the dragging user's colour at width 4 while the drag lasts, and the drag
   * end puts back the grey width-2 outline.
   */
  lemma DragShowsLockStroke(env: Env, b: Board, snapshot: seq<Shape>, i: nat, x: real, y: real)
    requires env.lockChannel && env.user.Some?
    requires !b.sync.isLoading
    requires i < |b.sync.shapes| && b.sync.shapes[i].kind != Text
    requires b.sync.shapes[i].id !in b.locks
    ensures var id := b.sync.shapes[i].id;
            var started := ShapeDragStart(env, b, id);
            var ended := ShapeDragEnd(env, started.board, snapshot, id, x, y);
            && Render(started.board).Stage?
            && Render(started.board).sprites[i].stroke == Stroke(Some(UserColor(env.user.value)), 4)
            && Render(ended.board).Stage?
            && Render(ended.board).sprites[i].stroke == Stroke(Some(UnlockedStroke), 2)
  {
    var id := b.sync.shapes[i].id;
    var started := ShapeDragStart(env, b, id);
    var ended := ShapeDragEnd(env, started.board, snapshot, id, x, y);
    assert ended.board.sync.shapes[i].id == id && ended.board.sync.shapes[i].kind == b.sync.shapes[i].kind;
  }

  /**
   * After signing out the lock table is empty, so every shape is drawn with its
   * unlocked outline. This is the lock provider's sign-out branch, which the
   * canvas page does not reach.
   */
  lemma SignedOutDrawsUnlocked(b: Board)
    requires !b.sync.isLoading
    ensures var v := Render(b.(locks := ShapeLock.OnAuthChange(b.locks, None)));
            && v.Stage?
            && forall i :: 0 <= i < |v.sprites| ==>
                 v.sprites[i].stroke == if b.sync.shapes[i].kind == Text then Stroke(None, 0) else Stroke(Some(UnlockedStroke), 2)
  {
  }
}

=== FILE: canvas_sync.dfy ===
/**
 * The canvas sync engine: the one in-memory list of shapes and every way it
 * changes. Each React `setShapes(prev => ...)` updater is a function here from
 * the previous list (and one event) to the next list:
 *  - the initial fetch of the shape table;
 *  - the durable change feed (INSERT merges the echo of a local optimistic
 *    insert by the shape's client `id`; UPDATE and DELETE match on `dbId`);
 *  - remote drag positions, which skip the local user's own messages and the
 *    shape being dragged here;
 *  - the optimistic `addShape`, `updateShape` and `deleteShape`, split into the
 *    optimistic update (returning a `Pending` value that records what to undo)
 *    and `Settle`, which rolls back when the backend reports a failure.
 * Backend calls are not made: their outcome is a parameter of `Settle`.
 */
module CanvasSync {
  import opened Wrappers
  import opened Throttle
  import Identity

  datatype ShapeType = Rect | Circle | Text

  /** The JSON `shape_info` blob stored in a row: a shape without its `dbId`. */
  datatype ShapeInfo = ShapeInfo(id: string, kind: ShapeType, x: real, y: real, fill: string, userId: Option<string>)

  /**
   * A shape as the client holds it. `id` is the client-generated identifier,
   * `dbId` the row id the backend assigned; a shape with no `dbId` is pending.
   */
  datatype Shape = Shape(id: string, kind: ShapeType, x: real, y: real, fill: string, userId: Option<string>, dbId: Option<string>)

  /** A row of the shape table: server-assigned id plus the stored shape. */
  datatype Row = Row(id: string, info: ShapeInfo)

  /** The `shape_info` a shape is persisted as (`dbId` left out). */
  function InfoOf(s: Shape): ShapeInfo
  {
    ShapeInfo(s.id, s.kind, s.x, s.y, s.fill, s.userId)
  }

  /** `{dbId: row.id, ...row.shape_info}`: the stored shape, tagged with its row id. */
  function FromRow(row: Row): (s: Shape)
    ensures s.dbId == Some(row.id)
    ensures InfoOf(s) == row.info
  {
    Shape(row.info.id, row.info.kind, row.info.x, row.info.y, row.info.fill, row.info.userId, Some(row.id))
  }

  /** Persisting a committed shape and reading its row back gives the same shape. */
  lemma RowRoundTrip(s: Shape)
    requires s.dbId.Some?
    ensures FromRow(Row(s.dbId.value, InfoOf(s))) == s
  {
  }

  ghost predicate HasId(shapes: seq<Shape>, id: string)
  {
    exists i :: 0 <= i < |shapes| && shapes[i].id == id
  }

  ghost predicate HasDbId(shapes: seq<Shape>, dbId: string)
  {
    exists i :: 0 <= i < |shapes| && shapes[i].dbId == Some(dbId)
  }

  /** No two shapes share a client id. */
  ghost predicate UniqueIds(shapes: seq<Shape>)
  {
    forall i, j :: 0 <= i < j < |shapes| ==> shapes[i].id != shapes[j].id
  }

  /** No two committed shapes share a row id. */
  ghost predicate UniqueDbIds(shapes: seq<Shape>)
  {
    forall i, j :: 0 <= i < j < |shapes| && shapes[i].dbId.Some? ==> shapes[i].dbId != shapes[j].dbId
  }

  ghost predicate WellFormed(shapes: seq<Shape>)
  {
    UniqueIds(shapes) && UniqueDbIds(shapes)
  }

  /** `findIndex(s => s.id === id)`: the first position holding `id`, if any. */
  function FindIndex(shapes: seq<Shape>, id: string): (r: Option<nat>)
    ensures r.None? <==> !HasId(shapes, id)
    ensures r.Some? ==> r.value < |shapes| && shapes[r.value].id == id
    ensures r.Some? ==> forall j :: 0 <= j < r.value ==> shapes[j].id != id
  {
    if shapes == [] then None
    else if shapes[0].id == id then Some(0)
    else
      match FindIndex(shapes[1..], id)
      case None =>
        assert forall i :: 0 < i < |shapes| ==> shapes[i] == shapes[1..][i - 1];
        None
      case Some(k) => Some(k + 1)
  }

  /** `find(s => s.id === id)`: the first shape holding `id`, if any. */
  function Find(shapes: seq<Shape>, id: string): (r: Option<Shape>)
    ensures r.None? <==> !HasId(shapes, id)
    ensures r.Some? ==> r.value.id == id && exists k :: 0 <= k < |shapes| && shapes[k] == r.value
    ensures r.Some? ==> r.value == shapes[FindIndex(shapes, id).value]
  {
    match FindIndex(shapes, id)
    case None => None
    case Some(k) => Some(shapes[k])
  }

  // ---------------------------------------------------------------------------
  // Initial load

  /** The result of the initial `select *`: the rows, or an error (or a thrown exception). */
  datatype Fetch = Fetched(rows: seq<Row>) | FetchFailed

  /** `data.map(row => ({dbId: row.id, ...row.shape_info}))` */
  function ParseRows(rows: seq<Row>): (r: seq<Shape>)
    ensures |r| == |rows|
    ensures forall i :: 0 <= i < |rows| ==> r[i].dbId == Some(rows[i].id) && InfoOf(r[i]) == rows[i].info
  {
    if rows == [] then [] else [FromRow(rows[0])] + ParseRows(rows[1..])
  }

  // ---------------------------------------------------------------------------
  // The durable change feed

  /**
   * INSERT event. When a shape with the stored client id is already present it
   * is the echo of a local optimistic insert: only that shape's `dbId` is filled
   * in. Otherwise the shape came from another client and is appended.
   */
  function OnInsert(prev: seq<Shape>, row: Row): (r: seq<Shape>)
    ensures HasId(prev, row.info.id) ==> |r| == |prev|
    ensures HasId(prev, row.info.id) ==>
              forall i :: 0 <= i < |r| ==>
                && r[i].(dbId := prev[i].dbId) == prev[i]
                && (r[i] != prev[i] ==> prev[i].id == row.info.id && r[i].dbId == Some(row.id))
    ensures HasId(prev, row.info.id) ==>
              var k := FindIndex(prev, row.info.id).value;
              && r[k] == prev[k].(dbId := Some(row.id))
              && forall i :: 0 <= i < |r| && i != k ==> r[i] == prev[i]
    ensures !HasId(prev, row.info.id) ==> r == prev + [FromRow(row)]
    ensures HasId(r, row.info.id)
    ensures UniqueIds(prev) ==> UniqueIds(r)
  {
    match FindIndex(prev, row.info.id)
    case Some(k) => prev[k := prev[k].(dbId := Some(row.id))]
    case None =>
      var r := prev + [FromRow(row)];
      assert r[|prev|].id == row.info.id;
      r
  }

  /** Receiving the same INSERT event twice has the effect of receiving it once. */
  lemma InsertIsIdempotent(prev: seq<Shape>, row: Row)
    ensures OnInsert(OnInsert(prev, row), row) == OnInsert(prev, row)
  {
  }

  /** UPDATE event: every shape whose `dbId` is the row id becomes the stored shape. */
  function OnUpdate(prev: seq<Shape>, row: Row): (r: seq<Shape>)
    ensures |r| == |prev|
    ensures forall i :: 0 <= i < |prev| && prev[i].dbId == Some(row.id) ==> r[i] == FromRow(row)
    ensures forall i :: 0 <= i < |prev| && prev[i].dbId != Some(row.id) ==> r[i] == prev[i]
    ensures !HasDbId(prev, row.id) ==> r == prev
  {
    if prev == [] then []
    else
      var head := if prev[0].dbId == Some(row.id) then FromRow(row) else prev[0];
      [head] + OnUpdate(prev[1..], row)
  }

  /**
   * DELETE event: drops every shape whose `dbId` is the deleted row id. What it
   * keeps is stated by `OnDeleteKeeps`, the order and copies by `OnDeleteAppend`.
   */
  function OnDelete(prev: seq<Shape>, rowId: string): (r: seq<Shape>)
    ensures |r| <= |prev|
  {
    if prev == [] then []
    else (if prev[0].dbId == Some(rowId) then [] else [prev[0]]) + OnDelete(prev[1..], rowId)
  }

  /**
   * DELETE keeps exactly the shapes without that row id, no more copies than
   * the list has; with no shape carrying the row id the list comes back identical.
   */
  lemma {:induction false} OnDeleteKeeps(prev: seq<Shape>, rowId: string)
    ensures forall s :: s in OnDelete(prev, rowId) <==> s in prev && s.dbId != Some(rowId)
    ensures multiset(OnDelete(prev, rowId)) <= multiset(prev)
    ensures !HasDbId(prev, rowId) ==> OnDelete(prev, rowId) == prev
    decreases |prev|
  {
    if prev != [] {
      OnDeleteKeeps(prev[1..], rowId);
      assert prev == [prev[0]] + prev[1..];
      assert multiset(prev) == multiset([prev[0]]) + multiset(prev[1..]);
      if !HasDbId(prev, rowId) {
        assert !HasDbId(prev[1..], rowId) by {
          forall i | 0 <= i < |prev[1..]| ensures prev[1..][i].dbId != Some(rowId) {
            assert prev[1..][i] == prev[i + 1];
          }
        }
      }
    }
  }

  /**
   * DELETE works shape by shape: on a concatenation it is the concatenation of
   * its results. With `OnDeleteSingle` this fixes the order and the number of
   * copies of what is kept.
   */
  lemma {:induction false} OnDeleteAppend(a: seq<Shape>, b: seq<Shape>, rowId: string)
    ensures OnDelete(a + b, rowId) == OnDelete(a, rowId) + OnDelete(b, rowId)
    decreases |a|
  {
    if a == [] {
      assert a + b == b;
    } else {
      assert (a + b)[0] == a[0] && (a + b)[1..] == a[1..] + b;
      OnDeleteAppend(a[1..], b, rowId);
    }
  }

  /** A single shape is dropped exactly when it carries the deleted row id. */
  lemma OnDeleteSingle(s: Shape, rowId: string)
    ensures OnDelete([s], rowId) == if s.dbId == Some(rowId) then [] else [s]
  {
    assert [s][1..] == [];
  }

  // ---------------------------------------------------------------------------
  // Position changes and removals keyed on the client id

  /** `prev.map(s => s.id === id ? {...s, x, y} : s)` */
  function MoveById(prev: seq<Shape>, id: string, x: real, y: real): (r: seq<Shape>)
    ensures |r| == |prev|
    ensures forall i :: 0 <= i < |prev| ==> r[i].(x := prev[i].x, y := prev[i].y) == prev[i]
    ensures forall i :: 0 <= i < |prev| && prev[i].id == id ==> r[i].x == x && r[i].y == y
    ensures forall i :: 0 <= i < |prev| && prev[i].id != id ==> r[i] == prev[i]
  {
    if prev == [] then []
    else
      var head := if prev[0].id == id then prev[0].(x := x, y := y) else prev[0];
      [head] + MoveById(prev[1..], id, x, y)
  }

  /** `prev.map(s => s.id === original.id ? original : s)`: the rollback of an update. */
  function RestoreById(prev: seq<Shape>, original: Shape): (r: seq<Shape>)
    ensures |r| == |prev|
    ensures forall i :: 0 <= i < |prev| && prev[i].id == original.id ==> r[i] == original
    ensures forall i :: 0 <= i < |prev| && prev[i].id != original.id ==> r[i] == prev[i]
  {
    if prev == [] then []
    else
      var head := if prev[0].id == original.id then original else prev[0];
      [head] + RestoreById(prev[1..], original)
  }

  /** `prev.filter(s => s.id !== id)`; what it keeps is stated by `RemoveByIdKeeps`. */
  function RemoveById(prev: seq<Shape>, id: string): (r: seq<Shape>)
    ensures |r| <= |prev|
  {
    if prev == [] then []
    else (if prev[0].id == id then [] else [prev[0]]) + RemoveById(prev[1..], id)
  }

  /** When no shape has the id, the filter gives back the list unchanged. */
  lemma {:induction false} RemoveByIdAbsent(prev: seq<Shape>, id: string)
    requires forall i :: 0 <= i < |prev| ==> prev[i].id != id
    ensures RemoveById(prev, id) == prev
    decreases |prev|
  {
    if prev != [] {
      assert forall i :: 0 <= i < |prev[1..]| ==> prev[1..][i] == prev[i + 1];
      RemoveByIdAbsent(prev[1..], id);
      assert prev == [prev[0]] + prev[1..];
    }
  }

  /** The filter keeps exactly the shapes without the id, and no occurrence of more than the input has. */
  lemma {:induction false} RemoveByIdMembers(prev: seq<Shape>, id: string)
    ensures forall s :: s in RemoveById(prev, id) <==> s in prev && s.id != id
    ensures multiset(RemoveById(prev, id)) <= multiset(prev)
    decreases |prev|
  {
    if prev != [] {
      RemoveByIdMembers(prev[1..], id);
      assert prev == [prev[0]] + prev[1..];
      assert multiset(prev) == multiset([prev[0]]) + multiset(prev[1..]);
    }
  }

  /**
   * The filter keeps exactly the shapes without that id, in a sub-multiset of
   * the input; when no shape has the id, the list comes back identical.
   */
  lemma RemoveByIdKeeps(prev: seq<Shape>, id: string)
    ensures forall s :: s in RemoveById(prev, id) <==> s in prev && s.id != id
    ensures !HasId(RemoveById(prev, id), id)
    ensures multiset(RemoveById(prev, id)) <= multiset(prev)
    ensures !HasId(prev, id) ==> RemoveById(prev, id) == prev
  {
    RemoveByIdMembers(prev, id);
    var r := RemoveById(prev, id);
    assert !HasId(r, id) by {
      forall i | 0 <= i < |r| ensures r[i].id != id {
        assert r[i] in r;
      }
    }
    if !HasId(prev, id) {
      RemoveByIdAbsent(prev, id);
    }
  }

  lemma {:induction false} RemoveByIdAppend(a: seq<Shape>, b: seq<Shape>, id: string)
    ensures RemoveById(a + b, id) == RemoveById(a, id) + RemoveById(b, id)
    decreases |a|
  {
    if a == [] {
      assert a + b == b;
    } else {
      assert (a + b)[0] == a[0] && (a + b)[1..] == a[1..] + b;
      RemoveByIdAppend(a[1..], b, id);
    }
  }

  /** Removing an id from a list that has it only at `prev[k]` cuts out exactly that position. */
  lemma {:induction false} RemoveSingleOccurrence(prev: seq<Shape>, k: nat, id: string)
    requires k < |prev| && prev[k].id == id
    requires forall i :: 0 <= i < |prev| && i != k ==> prev[i].id != id
    ensures RemoveById(prev, id) == prev[..k] + prev[k + 1..]
    decreases k
  {
    var tail := prev[1..];
    assert forall i :: 0 <= i < |tail| ==> tail[i] == prev[i + 1];
    if k == 0 {
      RemoveByIdAbsent(tail, id);
    } else {
      RemoveSingleOccurrence(tail, k - 1, id);
      assert tail[..k - 1] + tail[k..] == prev[1..k] + prev[k + 1..];
      assert [prev[0]] + prev[1..k] == prev[..k];
    }
  }

  /** With unique ids, removing the id of `prev[k]` removes exactly that one shape. */
  lemma {:induction false} RemoveUniqueId(prev: seq<Shape>, k: nat)
    requires UniqueIds(prev)
    requires k < |prev|
    ensures RemoveById(prev, prev[k].id) == prev[..k] + prev[k + 1..]
    ensures multiset(RemoveById(prev, prev[k].id)) + multiset([prev[k]]) == multiset(prev)
    ensures |RemoveById(prev, prev[k].id)| + 1 == |prev|
  {
    assert forall i :: 0 <= i < |prev| && i != k ==> prev[i].id != prev[k].id;
    RemoveSingleOccurrence(prev, k, prev[k].id);
    var before, after := prev[..k], prev[k + 1..];
    assert prev == before + [prev[k]] + after;
    assert multiset(prev) == multiset(before) + multiset([prev[k]]) + multiset(after);
    assert multiset(before + after) == multiset(before) + multiset(after);
  }

  // ---------------------------------------------------------------------------
  // Optimistic local mutations

  /** The fill colour a new shape gets from its type. */
  function FillFor(kind: ShapeType): string
  {
    match kind
    case Rect => "rgba(0, 100, 255, 0.5)"
    case Circle => "rgba(0, 255, 100, 0.5)"
    case Text => "black"
  }

  /**
   * What an optimistic mutation must remember to be undone, together with the
   * row operation it asks the backend for.
   */
  datatype Pending =
    | PendingInsert(shape: Shape)
    | PendingUpdate(original: Shape, dbId: string, info: ShapeInfo)
    | PendingDelete(original: Shape, dbId: string)

  /** The list right after an optimistic mutation, and what it is waiting for. */
  datatype Optimistic = Optimistic(shapes: seq<Shape>, pending: Pending)

  /**
   * `addShape(type, x, y)`: appends one pending shape with a type-determined
   * fill. `id` is the freshly generated client id; `userId` is the signed-in
   * user's id, if any.
   */
  function AddShape(prev: seq<Shape>, id: string, kind: ShapeType, x: real, y: real, userId: Option<string>): (r: Optimistic)
    ensures |r.shapes| == |prev| + 1 && r.shapes[..|prev|] == prev
    ensures r.pending.PendingInsert? && r.pending.shape == r.shapes[|prev|]
    ensures var s := r.pending.shape;
            && s.id == id && s.kind == kind && s.x == x && s.y == y && s.userId == userId
            && s.dbId == None
    ensures kind == Rect ==> r.pending.shape.fill == "rgba(0, 100, 255, 0.5)"
    ensures kind == Circle ==> r.pending.shape.fill == "rgba(0, 255, 100, 0.5)"
    ensures kind == Text ==> r.pending.shape.fill == "black"
  {
    var s := Shape(id, kind, x, y, FillFor(kind), userId, None);
    Optimistic(prev + [s], PendingInsert(s))
  }

  /**
   * A shape `updateShape`/`deleteShape` may act on: found in the snapshot, with
   * a truthy `dbId` (present and not the empty string).
   */
  ghost predicate Ready(snapshot: seq<Shape>, id: string)
  {
    Find(snapshot, id).Some? && Identity.Truthy(Find(snapshot, id).value.dbId)
  }

  /**
   * `updateShape(id, x, y)`. The shape is looked up in `snapshot`, the list the
   * caller last rendered; the optimistic update is applied to `prev`, the
   * current list. `None` is the "not found or missing dbId" early return.
   */
  function UpdateShape(snapshot: seq<Shape>, prev: seq<Shape>, id: string, x: real, y: real): (r: Option<Optimistic>)
    ensures r.None? <==> !Ready(snapshot, id)
    ensures r.Some? ==> r.value.shapes == MoveById(prev, id, x, y)
    ensures r.Some? ==>
              var o := Find(snapshot, id).value;
              && r.value.pending == PendingUpdate(o, o.dbId.value, InfoOf(o.(x := x, y := y)))
  {
    match Find(snapshot, id)
    case None => None
    case Some(s) =>
      if !Identity.Truthy(s.dbId) then None
      else Some(Optimistic(MoveById(prev, id, x, y), PendingUpdate(s, s.dbId.value, InfoOf(s.(x := x, y := y)))))
  }

  /** `deleteShape(id)`: same lookup and early return as `UpdateShape`; removes the shape optimistically. */
  function DeleteShape(snapshot: seq<Shape>, prev: seq<Shape>, id: string): (r: Option<Optimistic>)
    ensures r.None? <==> !Ready(snapshot, id)
    ensures r.Some? ==> r.value.shapes == RemoveById(prev, id) && !HasId(r.value.shapes, id)
    ensures r.Some? ==>
              var o := Find(snapshot, id).value;
              r.value.pending == PendingDelete(o, o.dbId.value)
  {
    match Find(snapshot, id)
    case None => None
    case Some(s) =>
      if !Identity.Truthy(s.dbId) then None
      else
        RemoveByIdKeeps(prev, id);
        Some(Optimistic(RemoveById(prev, id), PendingDelete(s, s.dbId.value)))
  }

  /**
   * The backend's answer to a pending mutation: on success the list is left
   * alone (the change feed brings the row), on failure the mutation is undone.
   */
  function Settle(prev: seq<Shape>, p: Pending, ok: bool): (r: seq<Shape>)
    ensures ok ==> r == prev
    ensures !ok && p.PendingInsert? ==> r == RemoveById(prev, p.shape.id)
    ensures !ok && p.PendingUpdate? ==> r == RestoreById(prev, p.original)
    ensures !ok && p.PendingDelete? ==> r == prev + [p.original]
  {
    if ok then prev
    else
      match p
      case PendingInsert(s) => RemoveById(prev, s.id)
      case PendingUpdate(original, _, _) => RestoreById(prev, original)
      case PendingDelete(original, _) => prev + [original]
  }

  /** A failed insert removes exactly the shape it added: the list is as before the call. */
  lemma AddRollbackRestores(prev: seq<Shape>, id: string, kind: ShapeType, x: real, y: real, userId: Option<string>)
    requires !HasId(prev, id)
    ensures var o := AddShape(prev, id, kind, x, y, userId);
            Settle(o.shapes, o.pending, false) == prev
  {
    var o := AddShape(prev, id, kind, x, y, userId);
    assert o.shapes == prev + [o.pending.shape];
    RemoveByIdAppend(prev, [o.pending.shape], id);
    RemoveByIdKeeps(prev, id);
  }

  /** A failed update puts the pre-call shape back: with unique ids the list is exactly as before. */
  lemma UpdateRollbackRestores(prev: seq<Shape>, id: string, x: real, y: real)
    requires UniqueIds(prev)
    requires UpdateShape(prev, prev, id, x, y).Some?
    ensures var o := UpdateShape(prev, prev, id, x, y).value;
            Settle(o.shapes, o.pending, false) == prev
  {
  }

  /**
   * A failed delete re-appends the removed shape: the count and the contents
   * are restored, but the shape is now last in the list.
   */
  lemma DeleteRollbackRestoresContents(prev: seq<Shape>, id: string)
    requires UniqueIds(prev)
    requires DeleteShape(prev, prev, id).Some?
    ensures var o := DeleteShape(prev, prev, id).value;
            var back := Settle(o.shapes, o.pending, false);
            && |back| == |prev|
            && multiset(back) == multiset(prev)
            && back[|back| - 1] == Find(prev, id).value
  {
    var original := Find(prev, id).value;
    var k :| 0 <= k < |prev| && prev[k] == original;
    RemoveUniqueId(prev, k);
  }

  /**
   * The INSERT echo of a local optimistic insert does not add a second shape:
   * the list keeps its length and the pending shape gains its `dbId`.
   */
  lemma InsertEchoMerges(prev: seq<Shape>, id: string, kind: ShapeType, x: real, y: real, userId: Option<string>, rowId: string)
    requires !HasId(prev, id)
    ensures var o := AddShape(prev, id, kind, x, y, userId);
            var echoed := OnInsert(o.shapes, Row(rowId, InfoOf(o.pending.shape)));
            && |echoed| == |o.shapes|
            && echoed == prev + [o.pending.shape.(dbId := Some(rowId))]
  {
  }

  /**
   * The UPDATE echo of a local update changes nothing: the optimistic list
   * already shows what the row now stores.
   */
  lemma UpdateEchoIsNoOp(prev: seq<Shape>, id: string, x: real, y: real)
    requires WellFormed(prev)
    requires UpdateShape(prev, prev, id, x, y).Some?
    ensures var o := UpdateShape(prev, prev, id, x, y).value;
            OnUpdate(o.shapes, Row(o.pending.dbId, o.pending.info)) == o.shapes
  {
  }

  /** With unique row ids, cutting out the shape at `k` leaves no shape with its row id. */
  lemma CutLeavesNoDbId(prev: seq<Shape>, k: nat)
    requires UniqueDbIds(prev)
    requires k < |prev| && prev[k].dbId.Some?
    ensures !HasDbId(prev[..k] + prev[k + 1..], prev[k].dbId.value)
  {
    var cut := prev[..k] + prev[k + 1..];
    forall i | 0 <= i < |cut| ensures cut[i].dbId != prev[k].dbId {
      var j := if i < k then i else i + 1;
      assert cut[i] == prev[j] && j != k;
    }
  }

  /** The DELETE echo of a local delete changes nothing: the row's shape is already gone. */
  lemma DeleteEchoIsNoOp(prev: seq<Shape>, id: string)
    requires WellFormed(prev)
    requires DeleteShape(prev, prev, id).Some?
    ensures var o := DeleteShape(prev, prev, id).value;
            OnDelete(o.shapes, o.pending.dbId) == o.shapes
  {
    var o := DeleteShape(prev, prev, id).value;
    var k :| 0 <= k < |prev| && prev[k] == Find(prev, id).value;
    RemoveUniqueId(prev, k);
    CutLeavesNoDbId(prev, k);
    OnDeleteKeeps(o.shapes, o.pending.dbId);
  }

  /**
   * The end-to-end scenario: adding a shape to an empty canvas gives one
   * pending shape; after the insert succeeds and its echo arrives there is
   * still exactly one shape, now carrying its row id.
   */
  lemma AddEchoScenario(id: string, kind: ShapeType, x: real, y: real, userId: Option<string>, rowId: string)
    ensures var o := AddShape([], id, kind, x, y, userId);
            var afterOk := Settle(o.shapes, o.pending, true);
            var echoed := OnInsert(afterOk, Row(rowId, InfoOf(o.pending.shape)));
            && |o.shapes| == 1 && o.shapes[0].dbId == None && o.shapes[0].x == x && o.shapes[0].y == y
            && |echoed| == 1 && echoed[0].dbId == Some(rowId) && echoed[0].id == id
  {
  }

  // ---------------------------------------------------------------------------
  // The engine: shapes, loading flag, drag suppression and the drag throttle

  /** The value the drag throttle holds and sends. */
  datatype DragPos = DragPos(shapeId: string, x: real, y: real)

  /** A `drag-move` broadcast as it travels on the channel. */
  datatype DragMsg = DragMsg(shapeId: string, x: real, y: real, userId: string)

  /**
   * The provider's state: the shape list, the loading flag, the id of the
   * shape being dragged here (if any) and the drag broadcast throttler.
   */
  datatype Engine = Engine(shapes: seq<Shape>, isLoading: bool, dragging: Option<string>, throttle: Throttler<DragPos>)

  /** The provider as first mounted: no shapes, loading, nothing dragged, throttler fresh. */
  function Mount(): (r: Engine)
    ensures r.shapes == [] && r.isLoading && r.dragging.None?
    ensures r.throttle.lastSend == 0 && r.throttle.pending.None?
  {
    Engine([], true, None, Initial())
  }

  /**
   * The end of the initial fetch: on success the rows replace the list, on
   * failure the list is left as it is. Loading ends either way.
   */
  function Load(e: Engine, f: Fetch): (r: Engine)
    ensures !r.isLoading
    ensures f.Fetched? ==> |r.shapes| == |f.rows|
    ensures f.Fetched? ==> forall i :: 0 <= i < |f.rows| ==> r.shapes[i] == FromRow(f.rows[i])
    ensures f.FetchFailed? ==> r.shapes == e.shapes
    ensures r.dragging == e.dragging && r.throttle == e.throttle
  {
    match f
    case Fetched(rows) =>
      var parsed := ParseRows(rows);
      assert forall i :: 0 <= i < |rows| ==> parsed[i] == FromRow(rows[i]);
      e.(shapes := parsed, isLoading := false)
    case FetchFailed => e.(isLoading := false)
  }

  /** Mounting and failing to fetch leaves an empty, loaded canvas. */
  lemma FailedLoadIsEmpty()
    ensures Load(Mount(), FetchFailed).shapes == []
    ensures !Load(Mount(), FetchFailed).isLoading
  {
  }

  /** `setLocallyDraggingShape(id | null)`: a ref write; the shapes, loading flag and throttle are untouched. */
  function SetLocallyDragging(e: Engine, id: Option<string>): (r: Engine)
    ensures r.dragging == id
    ensures r.shapes == e.shapes && r.isLoading == e.isLoading && r.throttle == e.throttle
  {
    e.(dragging := id)
  }

  /**
   * A received `drag-move`. Ignored when it is the local user's own message or
   * names the shape being dragged here; otherwise it moves the shapes with that
   * client id and touches nothing else.
   */
  function OnDragMove(e: Engine, selfId: string, m: DragMsg): (r: Engine)
    ensures m.userId == selfId || e.dragging == Some(m.shapeId) ==> r == e
    ensures r.isLoading == e.isLoading && r.dragging == e.dragging && r.throttle == e.throttle
    ensures |r.shapes| == |e.shapes|
    ensures forall i :: 0 <= i < |e.shapes| ==> r.shapes[i].(x := e.shapes[i].x, y := e.shapes[i].y) == e.shapes[i]
    ensures forall i :: 0 <= i < |e.shapes| && e.shapes[i].id != m.shapeId ==> r.shapes[i] == e.shapes[i]
    ensures m.userId != selfId && e.dragging != Some(m.shapeId) ==>
              forall i :: 0 <= i < |e.shapes| && e.shapes[i].id == m.shapeId ==> r.shapes[i].x == m.x && r.shapes[i].y == m.y
  {
    if m.userId == selfId || e.dragging == Some(m.shapeId) then e
    else e.(shapes := MoveById(e.shapes, m.shapeId, m.x, m.y))
  }

  /**
   * Drag suppression: while a shape is dragged here, remote positions for it
   * are dropped; once the flag is cleared, a remote position from another user
   * moves it.
   */
  lemma DragSuppressionLifts(e: Engine, selfId: string, m: DragMsg, i: nat)
    requires m.userId != selfId
    requires i < |e.shapes| && e.shapes[i].id == m.shapeId
    ensures OnDragMove(SetLocallyDragging(e, Some(m.shapeId)), selfId, m).shapes == e.shapes
    ensures var r := OnDragMove(SetLocallyDragging(e, None), selfId, m);
            r.shapes[i].x == m.x && r.shapes[i].y == m.y
  {
  }

  /** The outcome of a drag broadcast call or tick: the engine and the messages sent. */
  datatype Broadcast = Broadcast(engine: Engine, sent: seq<DragMsg>)

  /** Turns throttler output into `drag-move` payloads stamped with the sender's id. */
  function DragMessages(out: seq<Sent<DragPos>>, userId: string): (r: seq<DragMsg>)
    ensures |r| == |out|
    ensures forall i :: 0 <= i < |out| ==> r[i] == DragMsg(out[i].value.shapeId, out[i].value.x, out[i].value.y, userId)
  {
    if out == [] then []
    else [DragMsg(out[0].value.shapeId, out[0].value.x, out[0].value.y, userId)] + DragMessages(out[1..], userId)
  }

  /**
   * `broadcastShapePosition(id, x, y)` at time `now`. `channel` says whether the
   * drag channel exists; with no channel or no user the call does nothing.
   */
  function BroadcastShapePosition(e: Engine, channel: bool, user: Option<Identity.User>, now: int, id: string, x: real, y: real): (r: Broadcast)
    ensures r.engine.throttle == Submit(e.throttle, channel && user.Some?, now, DragPos(id, x, y)).next
    ensures r.engine.(throttle := e.throttle) == e
    ensures !channel || user.None? ==> r == Broadcast(e, [])
    ensures |r.sent| <= 1
    ensures r.sent != [] <==> channel && user.Some? && e.throttle.lastSend + ThrottleMs <= now
    ensures r.sent != [] ==> user.Some? && r.sent == [DragMsg(id, x, y, user.value.id)]
  {
    var s := Submit(e.throttle, channel && user.Some?, now, DragPos(id, x, y));
    var sent := if user.Some? then DragMessages(s.out, user.value.id) else [];
    Broadcast(e.(throttle := s.next), sent)
  }

  /** The 50 ms interval: sends the pending drag position once the window has passed. */
  function FlushDragPosition(e: Engine, channel: bool, user: Option<Identity.User>, now: int): (r: Broadcast)
    ensures r.engine.throttle == Tick(e.throttle, channel && user.Some?, now).next
    ensures r.engine.(throttle := e.throttle) == e
    ensures |r.sent| <= 1
    ensures r.sent != [] <==> channel && user.Some? && e.throttle.pending.Some? && e.throttle.lastSend + ThrottleMs <= now
    ensures r.sent != [] ==>
              var p := e.throttle.pending.value;
              r.sent == [DragMsg(p.shapeId, p.x, p.y, user.value.id)]
  {
    var s := Tick(e.throttle, channel && user.Some?, now);
    var sent := if user.Some? then DragMessages(s.out, user.value.id) else [];
    Broadcast(e.(throttle := s.next), sent)
  }
}

=== FILE: cursor_tracking.dfy ===
/**
 * Live cursors: the local pointer is broadcast through the 50 ms throttler,
 * stamped with the send time; received cursors are kept one per remote user
 * and evicted once more than five seconds old. The clock is an explicit `now`.
 */
module CursorTracking {
  import opened Wrappers
  import opened Identity
  import opened Throttle

  /** A cursor older than this many milliseconds is removed by the cleanup tick. */
  const CursorTimeoutMs: int := 5000

  /** A `cursor-move` payload: who, in which colour, where (world coordinates), and when it was sent. */
  datatype Cursor = Cursor(userId: string, username: string, color: string, x: real, y: real, timestamp: int)

  /** Remote cursors keyed by user id. */
  type CursorMap = map<string, Cursor>

  /** The value the cursor throttle holds: a world position. */
  datatype Point = Point(x: real, y: real)

  /** Each entry sits under its own user's id, and the local user has none. */
  ghost predicate WellKeyed(selfId: string, m: CursorMap)
  {
    forall u :: u in m ==> m[u].userId == u && u != selfId
  }

  /**
   * A received `cursor-move`: the local user's own cursor is dropped; any other
   * replaces that user's single entry.
   */
  function OnCursorMove(selfId: string, m: CursorMap, c: Cursor): (r: CursorMap)
    ensures c.userId == selfId ==> r == m
    ensures c.userId != selfId ==> r.Keys == m.Keys + {c.userId} && r[c.userId] == c
    ensures forall u :: u in m && u != c.userId ==> u in r && r[u] == m[u]
    ensures selfId !in r.Keys - m.Keys
    ensures WellKeyed(selfId, m) ==> WellKeyed(selfId, r)
  {
    if c.userId == selfId then m else m[c.userId := c]
  }

  /** A cursor is stale at `now` once it is more than `CursorTimeoutMs` old. */
  predicate Stale(now: int, c: Cursor)
  {
    now - c.timestamp > CursorTimeoutMs
  }

  /**
   * The once-a-second cleanup: removes exactly the stale entries. When none is
   * stale the map comes back unchanged.
   */
  function Cleanup(now: int, m: CursorMap): (r: CursorMap)
    ensures forall u :: u in r <==> u in m && !Stale(now, m[u])
    ensures forall u :: u in r ==> r[u] == m[u]
    ensures (forall u :: u in m ==> !Stale(now, m[u])) ==> r == m
  {
    map u | u in m && now - m[u].timestamp <= CursorTimeoutMs :: m[u]
  }

  /** The eviction boundary: 6000 ms old is removed; 5000 ms and 4000 ms old are kept. */
  lemma EvictionBoundary(now: int, m: CursorMap, a: string, b: string, c: string)
    requires a in m && m[a].timestamp == now - 6000
    requires b in m && m[b].timestamp == now - 5000
    requires c in m && m[c].timestamp == now - 4000
    ensures a !in Cleanup(now, m)
    ensures b in Cleanup(now, m) && c in Cleanup(now, m)
  {
  }

  /** The cursor payload for a send: the user's identity, the position, and the send time as timestamp. */
  function Stamp(u: User, s: Sent<Point>): (c: Cursor)
    ensures c.userId == u.id && c.timestamp == s.at && c.x == s.value.x && c.y == s.value.y
    ensures c.username == DisplayName(u) && c.color == UserColor(u)
  {
    Cursor(u.id, DisplayName(u), UserColor(u), s.value.x, s.value.y, s.at)
  }

  function StampAll(u: User, out: seq<Sent<Point>>): (r: seq<Cursor>)
    ensures |r| == |out|
    ensures forall i :: 0 <= i < |out| ==> r[i] == Stamp(u, out[i])
  {
    if out == [] then [] else [Stamp(u, out[0])] + StampAll(u, out[1..])
  }

  /** The cursor throttle after a call or tick, and the payloads it sent. */
  datatype Broadcast = Broadcast(throttle: Throttler<Point>, sent: seq<Cursor>)

  /** `broadcastCursor(x, y)` at time `now`; a no-op without channel or user. */
  function BroadcastCursor(th: Throttler<Point>, channel: bool, user: Option<User>, now: int, x: real, y: real): (r: Broadcast)
    ensures r.throttle == Submit(th, channel && user.Some?, now, Point(x, y)).next
    ensures !channel || user.None? ==> r == Broadcast(th, [])
    ensures |r.sent| <= 1
    ensures r.sent != [] <==> channel && user.Some? && th.lastSend + ThrottleMs <= now
    ensures r.sent != [] ==>
              && user.Some?
              && r.sent == [Cursor(user.value.id, DisplayName(user.value), UserColor(user.value), x, y, now)]
              && r.throttle == Throttler(now, None)
  {
    var s := Submit(th, channel && user.Some?, now, Point(x, y));
    Broadcast(s.next, if user.Some? then StampAll(user.value, s.out) else [])
  }

  /** The 50 ms interval: sends the pending position, stamped with the flush time. */
  function FlushCursor(th: Throttler<Point>, channel: bool, user: Option<User>, now: int): (r: Broadcast)
    ensures r.throttle == Tick(th, channel && user.Some?, now).next
    ensures |r.sent| <= 1
    ensures r.sent != [] <==> channel && user.Some? && th.pending.Some? && th.lastSend + ThrottleMs <= now
    ensures r.sent != [] ==>
              r.sent == [Cursor(user.value.id, DisplayName(user.value), UserColor(user.value), th.pending.value.x, th.pending.value.y, now)]
  {
    var s := Tick(th, channel && user.Some?, now);
    Broadcast(s.next, if user.Some? then StampAll(user.value, s.out) else [])
  }

  /**
   * Sender and receiver together: a cursor that user A sends at `sentAt` and
   * user B receives stays on B's screen through every cleanup up to
   * `sentAt + CursorTimeoutMs` and is gone at the first cleanup after that.
   * The timestamp is read on A's clock and `later` on B's, so the two clocks
   * are taken to agree; `ClockSkewLifetime` drops that assumption.
   */
  lemma SentCursorLifetime(a: User, b: User, th: Throttler<Point>, m: CursorMap, sentAt: int, x: real, y: real, later: int)
    requires a.id != b.id
    requires th.lastSend + ThrottleMs <= sentAt
    ensures var sent := BroadcastCursor(th, true, Some(a), sentAt, x, y).sent;
            && |sent| == 1
            && var seen := OnCursorMove(b.id, m, sent[0]);
            && a.id in seen
            && (a.id in Cleanup(later, seen) <==> later <= sentAt + CursorTimeoutMs)
  {
  }

  /**
   * With B's clock `skew` ms ahead of A's, a cursor sent at `sentAt` (A's clock)
   * survives a cleanup at A-time `later` exactly while `later - sentAt` is at
   * most `CursorTimeoutMs - skew`. A skew of `CursorTimeoutMs` or more evicts
   * it at every cleanup after the send.
   */
  lemma ClockSkewLifetime(a: User, b: User, th: Throttler<Point>, m: CursorMap, sentAt: int, x: real, y: real, skew: int, later: int)
    requires a.id != b.id
    requires th.lastSend + ThrottleMs <= sentAt
    ensures var sent := BroadcastCursor(th, true, Some(a), sentAt, x, y).sent;
            && |sent| == 1
            && var seen := OnCursorMove(b.id, m, sent[0]);
            && (a.id in Cleanup(later + skew, seen) <==> later - sentAt <= CursorTimeoutMs - skew)
            && (skew >= CursorTimeoutMs && later > sentAt ==> a.id !in Cleanup(later + skew, seen))
  {
  }

  /**
   * Signing out empties the cursor map; a new session keeps it.
   * The canvas page mounts this provider only while a user is signed in, so the
   * sign-out branch does not run while the canvas is shown; it is modelled as written.
   */
  function OnAuthChange(m: CursorMap, user: Option<User>): (r: CursorMap)
    ensures user.None? ==> r == map[]
    ensures user.Some? ==> r == m
  {
    if user.None? then map[] else m
  }

  /**
   * After signing out no earlier cursor survives: the cleanup has nothing to
   * evict, and the next received cursor is the only entry. This is the
   * provider's sign-out branch, which the canvas page does not reach.
   */
  lemma SignedOutForgetsCursors(selfId: string, m: CursorMap, now: int, c: Cursor)
    ensures Cleanup(now, OnAuthChange(m, None)) == map[]
    ensures OnCursorMove(selfId, OnAuthChange(m, None), c).Keys <= {c.userId}
  {
  }
}

=== FILE: identity.dfy ===
/**
 * The signed-in user as the auth service reports it, and the two values every
 * realtime component derives from it: the display name and the palette colour.
 * The three providers (presence, cursors, locks) each carry an identical copy of
 * the name fallback and of `generateColor`; they are defined once here.
 */
module Identity {
  import opened Wrappers

  /** `{id, email, user_metadata.username}`; both optional fields may be absent. */
  datatype User = User(id: string, email: Option<string>, username: Option<string>)

  /** JavaScript truthiness of an optional string: present and non-empty. */
  predicate Truthy(s: Option<string>)
  {
    s.Some? && s.value != ""
  }

  /** `s.split('@')[0]`: everything before the first '@', or all of `s` when it has none. */
  function BeforeAt(s: string): (r: string)
    ensures r <= s
    ensures '@' !in r
    ensures |r| < |s| ==> s[|r|] == '@'
  {
    if s == [] || s[0] == '@' then [] else [s[0]] + BeforeAt(s[1..])
  }

  /** `email?.split('@')[0]`, as an optional string. */
  function EmailName(u: User): Option<string>
  {
    match u.email
    case Some(e) => Some(BeforeAt(e))
    case None => None
  }

  /**
   * `username || email?.split('@')[0] || 'Anonymous'`: the name shown for a user in
   * presence, cursor labels and lock tooltips.
   */
  function DisplayName(u: User): (r: string)
    ensures r != ""
    ensures Truthy(u.username) ==> r == u.username.value
    ensures !Truthy(u.username) && Truthy(EmailName(u)) ==> r == BeforeAt(u.email.value)
    ensures r == "Anonymous" || Some(r) == u.username || Some(r) == EmailName(u)
    ensures r == "Anonymous" <== !Truthy(u.username) && !Truthy(EmailName(u))
  {
    if Truthy(u.username) then u.username.value
    else if Truthy(EmailName(u)) then EmailName(u).value
    else "Anonymous"
  }

  /** `username || email || id`: the string hashed into a colour (the whole email, not its prefix). */
  function ColorKey(u: User): (r: string)
    ensures Truthy(u.username) ==> r == u.username.value
    ensures !Truthy(u.username) && Truthy(u.email) ==> r == u.email.value
    ensures !Truthy(u.username) && !Truthy(u.email) ==> r == u.id
  {
    if Truthy(u.username) then u.username.value
    else if Truthy(u.email) then u.email.value
    else u.id
  }

  /** The fixed palette of ten user colours. */
  const Palette: seq<string> :=
    ["#FF6B6B", "#4ECDC4", "#45B7D1", "#FFA07A", "#98D8C8",
     "#F7DC6F", "#BB8FCE", "#85C1E2", "#F8B739", "#52B788"]

  const TwoTo31: int := 0x8000_0000
  const TwoTo32: int := 0x1_0000_0000

  /** ECMAScript ToInt32 on an integral number: wrap into the signed 32-bit range. */
  function ToInt32(n: int): (r: int)
    ensures -TwoTo31 <= r < TwoTo31
    ensures (r - n) % TwoTo32 == 0
  {
    var m := n % TwoTo32;
    if m >= TwoTo31 then m - TwoTo32 else m
  }

  /** One round of `hash = code + ((hash << 5) - hash)`: the shift works on 32 bits, the subtraction does not. */
  function HashStep(h: int, c: char): int
  {
    (c as int) + (ToInt32(ToInt32(h) * 32) - h)
  }

  /** The hash of `s`, folding `HashStep` over its characters from the left, starting at 0. */
  function Hash(s: string): int
  {
    if s == [] then 0 else HashStep(Hash(s[..|s| - 1]), s[|s| - 1])
  }

  /** Largest change one `HashStep` can make: a 32-bit shift result plus a character code. */
  const StepBound: int := TwoTo31 + 0x11_0000

  /**
   * The hash grows at most linearly in the length of the string, so it stays
   * far below 2^53 (where double arithmetic would start rounding) for any
   * realistic name.
   */
  lemma {:induction false} HashBounded(s: string)
    ensures -(|s| * StepBound) <= Hash(s) <= |s| * StepBound
  {
    if s != [] {
      var p := s[..|s| - 1];
      HashBounded(p);
      assert |p| * StepBound + StepBound == |s| * StepBound;
    }
  }

  /** `Math.abs(hash) % colors.length` */
  function ColorIndex(h: int): (r: int)
    ensures 0 <= r < |Palette|
    ensures r == h % |Palette| || r == (-h) % |Palette|
  {
    (if h < 0 then -h else h) % |Palette|
  }

  /** `generateColor(key)`: always one of the ten palette entries. */
  function GenerateColor(key: string): (c: string)
    ensures c in Palette
  {
    Palette[ColorIndex(Hash(key))]
  }

  /** The colour a user is drawn in everywhere: presence avatar, cursor and lock stroke. */
  function UserColor(u: User): (c: string)
    ensures c in Palette
  {
    GenerateColor(ColorKey(u))
  }

  /**
   * The colour depends only on the colour key: two users with the same
   * non-empty username share a colour whatever their ids and emails, and
   * without usernames the same non-empty email gives the same colour.
   */
  lemma ColorFollowsKey(u: User, v: User)
    ensures Truthy(u.username) && u.username == v.username ==> UserColor(u) == UserColor(v)
    ensures !Truthy(u.username) && !Truthy(v.username) && Truthy(u.email) && u.email == v.email ==> UserColor(u) == UserColor(v)
    ensures !Truthy(u.username) && !Truthy(v.username) && !Truthy(u.email) && !Truthy(v.email) && u.id == v.id ==> UserColor(u) == UserColor(v)
  {
  }
}

=== FILE: presence.dfy ===
/**
 * Presence: who is online. Every `sync` event rebuilds the online list from the
 * channel's full presence state; `join` and `leave` are informational only.
 * The connection flag is raised when the channel reports `SUBSCRIBED`.
 */
module Presence {
  import opened Wrappers
  import opened Identity

  /** What a client tracks about itself on the presence channel. */
  datatype PresenceUser = PresenceUser(id: string, username: string, color: string)

  /** One tracked presence; `user` is missing when a presence was tracked without one. */
  datatype PresenceEntry = PresenceEntry(user: Option<PresenceUser>)

  /** The channel's presence state: each key's list of presences, keys in enumeration order. */
  type Snapshot = seq<seq<PresenceEntry>>

  /** The entry the local user tracks once subscribed. */
  function CurrentUser(u: User): (r: PresenceUser)
    ensures r.id == u.id && r.username == DisplayName(u) && r.username != ""
    ensures r.color in Palette
  {
    PresenceUser(u.id, DisplayName(u), UserColor(u))
  }

  /** The users of one key's presences, in order, skipping presences without a user. */
  function UsersOf(ps: seq<PresenceEntry>): (r: seq<PresenceUser>)
    ensures |r| <= |ps|
    ensures forall u :: u in r <==> PresenceEntry(Some(u)) in ps
    ensures |ps| == 1 ==> r == if ps[0].user.Some? then [ps[0].user.value] else []
  {
    if ps == [] then []
    else
      assert ps == [ps[0]] + ps[1..];
      (if ps[0].user.Some? then [ps[0].user.value] else []) + UsersOf(ps[1..])
  }

  /** All presences of the snapshot, key after key. */
  function Concat(snap: Snapshot): (r: seq<PresenceEntry>)
    ensures forall p :: p in r <==> exists i :: 0 <= i < |snap| && p in snap[i]
  {
    if snap == [] then []
    else
      assert forall i :: 0 < i < |snap| ==> snap[i] == snap[1..][i - 1];
      snap[0] + Concat(snap[1..])
  }

  function TotalPresences(snap: Snapshot): nat
  {
    if snap == [] then 0 else |snap[0]| + TotalPresences(snap[1..])
  }

  /** The `sync` handler's nested `forEach`: every key's users, concatenated in order. */
  function Flatten(snap: Snapshot): (r: seq<PresenceUser>)
    ensures |r| <= TotalPresences(snap)
  {
    if snap == [] then [] else UsersOf(snap[0]) + Flatten(snap[1..])
  }

  /** The users of two runs of presences are the users of each, in order: with the singleton case, this fixes the order. */
  lemma {:induction false} UsersOfAppend(a: seq<PresenceEntry>, b: seq<PresenceEntry>)
    ensures UsersOf(a + b) == UsersOf(a) + UsersOf(b)
    decreases |a|
  {
    if a == [] {
      assert a + b == b;
    } else {
      assert (a + b)[1..] == a[1..] + b;
      UsersOfAppend(a[1..], b);
    }
  }

  /**
   * The online list is the users of all presences, in the order the snapshot
   * lists them: an independent description of the nested loop.
   */
  lemma {:induction false} FlattenIsUsersOfConcat(snap: Snapshot)
    ensures Flatten(snap) == UsersOf(Concat(snap))
    decreases |snap|
  {
    if snap != [] {
      FlattenIsUsersOfConcat(snap[1..]);
      UsersOfAppend(snap[0], Concat(snap[1..]));
    }
  }

  /** A user is online exactly when some key of the snapshot has a presence carrying that user. */
  lemma {:induction false} OnlineMembership(snap: Snapshot, u: PresenceUser)
    ensures u in Flatten(snap) <==> exists i :: 0 <= i < |snap| && PresenceEntry(Some(u)) in snap[i]
  {
    FlattenIsUsersOfConcat(snap);
  }

  /** When every presence carries a user, the online list has one entry per presence. */
  lemma {:induction false} FullSnapshotLength(snap: Snapshot)
    requires forall i, j :: 0 <= i < |snap| && 0 <= j < |snap[i]| ==> snap[i][j].user.Some?
    ensures |Flatten(snap)| == TotalPresences(snap)
    decreases |snap|
  {
    if snap != [] {
      AllUsersPresent(snap[0]);
      assert forall i :: 0 < i < |snap| ==> snap[1..][i - 1] == snap[i];
      FullSnapshotLength(snap[1..]);
    }
  }

  lemma {:induction false} AllUsersPresent(ps: seq<PresenceEntry>)
    requires forall j :: 0 <= j < |ps| ==> ps[j].user.Some?
    ensures |UsersOf(ps)| == |ps|
    decreases |ps|
  {
    if ps != [] {
      AllUsersPresent(ps[1..]);
    }
  }

  /** The statuses the channel reports to its subscribe callback. */
  datatype ChannelStatus = Subscribed | TimedOut | Closed | ChannelError

  datatype PresenceEvent = Sync(snapshot: Snapshot) | Join | Leave | Status(status: ChannelStatus)

  datatype PresenceState = PresenceState(onlineUsers: seq<PresenceUser>, isConnected: bool)

  /** The provider before any event: nobody online, not connected. */
  function Initial(): PresenceState
  {
    PresenceState([], false)
  }

  /**
   * One presence event. `sync` replaces the online list (the previous list
   * plays no part); `join`/`leave` change nothing; a status report raises the
   * connection flag on `SUBSCRIBED` and otherwise leaves it alone.
   */
  function Step(st: PresenceState, ev: PresenceEvent): (r: PresenceState)
    ensures ev.Sync? ==> r == PresenceState(Flatten(ev.snapshot), st.isConnected)
    ensures ev.Join? || ev.Leave? ==> r == st
    ensures ev.Status? ==> r.onlineUsers == st.onlineUsers
    ensures ev.Status? ==> (r.isConnected <==> st.isConnected || ev.status == Subscribed)
  {
    match ev
    case Sync(snap) => st.(onlineUsers := Flatten(snap))
    case Join => st
    case Leave => st
    case Status(s) => if s == Subscribed then st.(isConnected := true) else st
  }

  /** Events in order. */
  function Replay(st: PresenceState, evs: seq<PresenceEvent>): PresenceState
    decreases |evs|
  {
    if evs == [] then st else Replay(Step(st, evs[0]), evs[1..])
  }

  /** The connection flag is never raised by anything but a `SUBSCRIBED` status. */
  lemma {:induction false} ConnectedOnlyBySubscribed(st: PresenceState, evs: seq<PresenceEvent>)
    requires !st.isConnected
    requires forall i :: 0 <= i < |evs| ==> evs[i] != Status(Subscribed)
    ensures !Replay(st, evs).isConnected
    decreases |evs|
  {
    if evs != [] {
      assert forall i :: 0 < i < |evs| ==> evs[1..][i - 1] == evs[i];
      ConnectedOnlyBySubscribed(Step(st, evs[0]), evs[1..]);
    }
  }

  /** After a `sync`, the online list depends only on the snapshot, not on what was there before. */
  lemma SyncReplaces(a: PresenceState, b: PresenceState, snap: Snapshot)
    ensures Step(a, Sync(snap)).onlineUsers == Step(b, Sync(snap)).onlineUsers
  {
  }

  /**
   * Signing out clears the list and the flag; a new session keeps the state.
   * The canvas page mounts this provider only while a user is signed in, so the
   * sign-out branch does not run while the canvas is shown; it is modelled as written.
   */
  function OnAuthChange(st: PresenceState, user: Option<User>): (r: PresenceState)
    ensures user.None? ==> r.onlineUsers == [] && !r.isConnected
    ensures user.Some? ==> r == st
  {
    if user.None? then Initial() else st
  }
}

=== FILE: presence_indicators.dfy ===
/**
 * The presence indicator strip: the online users other than the local one, at
 * most five shown as initials avatars with a `+N` badge for the rest, or a
 * status line when nobody else is online.
 */
module PresenceIndicators {
  import opened Wrappers
  import opened Presence

  /** At most this many avatars are shown. */
  const MaxShown: nat := 5

  /** At most this many letters of initials. */
  const MaxInitials: nat := 2

  /**
   * `onlineUsers.filter(u => u.id !== user?.id)`; with nobody signed in every
   * user is kept. What it keeps is stated by `OtherUsersMembers`.
   */
  function OtherUsers(users: seq<PresenceUser>, selfId: Option<string>): (r: seq<PresenceUser>)
    ensures |r| <= |users|
    ensures selfId.None? ==> r == users
  {
    if users == [] then []
    else (if Some(users[0].id) != selfId then [users[0]] else []) + OtherUsers(users[1..], selfId)
  }

  /** The filter keeps exactly the users other than the local one, and no more copies than the input has. */
  lemma {:induction false} OtherUsersMembers(users: seq<PresenceUser>, selfId: Option<string>)
    ensures forall u :: u in OtherUsers(users, selfId) <==> u in users && Some(u.id) != selfId
    ensures multiset(OtherUsers(users, selfId)) <= multiset(users)
    decreases |users|
  {
    if users != [] {
      OtherUsersMembers(users[1..], selfId);
      assert users == [users[0]] + users[1..];
      assert multiset(users) == multiset([users[0]]) + multiset(users[1..]);
    }
  }

  /**
   * The filter works user by user: on a concatenation it is the concatenation
   * of its results. With `OtherUsersSingle` this fixes the order and the number
   * of copies kept (a user signed in from two tabs is listed twice).
   */
  lemma {:induction false} OtherUsersAppend(a: seq<PresenceUser>, b: seq<PresenceUser>, selfId: Option<string>)
    ensures OtherUsers(a + b, selfId) == OtherUsers(a, selfId) + OtherUsers(b, selfId)
    decreases |a|
  {
    if a == [] {
      assert a + b == b;
    } else {
      assert (a + b)[0] == a[0] && (a + b)[1..] == a[1..] + b;
      OtherUsersAppend(a[1..], b, selfId);
    }
  }

  /** A single user is kept exactly when it is not the local one. */
  lemma OtherUsersSingle(u: PresenceUser, selfId: Option<string>)
    ensures OtherUsers([u], selfId) == if Some(u.id) != selfId then [u] else []
  {
    assert [u][1..] == [];
  }

  function Min(a: int, b: int): int
  {
    if a < b then a else b
  }

  // ---------------------------------------------------------------------------
  // Initials: `name.split(' ').map(n => n[0]).join('').toUpperCase().slice(0, 2)`

  /** `s.split(' ')`: the space-separated words, empty ones included; never an empty list. */
  function Split(s: string): (r: seq<string>)
    ensures |r| >= 1
    ensures forall i :: 0 <= i < |r| ==> ' ' !in r[i]
  {
    if s == [] then [[]]
    else if s[0] == ' ' then [[]] + Split(s[1..])
    else
      var rest := Split(s[1..]);
      [[s[0]] + rest[0]] + rest[1..]
  }

  /** `words.join(' ')` */
  function Join(words: seq<string>): string
  {
    if words == [] then []
    else if |words| == 1 then words[0]
    else words[0] + [' '] + Join(words[1..])
  }

  /** Splitting on spaces loses nothing: joining the words back gives the original string. */
  lemma {:induction false} SplitJoin(s: string)
    ensures Join(Split(s)) == s
    decreases |s|
  {
    if s != [] {
      var rest := Split(s[1..]);
      SplitJoin(s[1..]);
      if s[0] == ' ' {
        assert Split(s) == [[]] + rest;
      } else {
        var w := Split(s);
        assert w == [[s[0]] + rest[0]] + rest[1..];
        if |rest| == 1 {
          assert Join(w) == [s[0]] + rest[0];
        } else {
          assert Join(rest) == rest[0] + [' '] + Join(rest[1..]);
          assert w[1..] == rest[1..];
          assert Join(w) == [s[0]] + rest[0] + [' '] + Join(rest[1..]);
        }
      }
    }
  }

  /** `words.map(n => n[0]).join('')`: an empty word's `n[0]` is undefined and joins as nothing. */
  function FirstChars(words: seq<string>): string
  {
    if words == [] then []
    else (if words[0] == [] then [] else [words[0][0]]) + FirstChars(words[1..])
  }

  /**
   * Reference definition: the characters that start a word, i.e. every
   * non-space character at the start of the string (when `atStart`) or right
   * after a space.
   */
  function WordStarts(s: string, atStart: bool): (r: string)
    ensures ' ' !in r
    ensures |r| <= |s|
  {
    if s == [] then []
    else (if s[0] != ' ' && atStart then [s[0]] else []) + WordStarts(s[1..], s[0] == ' ')
  }

  /** The split-and-take-heads pipeline picks exactly the word-start characters, in order. */
  lemma {:induction false} FirstCharsAreWordStarts(s: string)
    ensures FirstChars(Split(s)) == WordStarts(s, true)
    ensures FirstChars(Split(s)[1..]) == WordStarts(s, false)
    decreases |s|
  {
    if s != [] {
      var rest := Split(s[1..]);
      FirstCharsAreWordStarts(s[1..]);
      if s[0] == ' ' {
        assert Split(s) == [[]] + rest;
        assert Split(s)[1..] == rest;
      } else {
        var w := Split(s);
        assert w == [[s[0]] + rest[0]] + rest[1..];
        assert w[1..] == rest[1..];
        assert FirstChars(w) == [s[0]] + FirstChars(rest[1..]);
      }
    }
  }

  /** Whether the character after `a` would start a word, scanning `a` from state `atStart`. */
  function AtStartAfter(a: string, atStart: bool): bool
  {
    if a == [] then atStart else AtStartAfter(a[1..], a[0] == ' ')
  }

  lemma {:induction false} WordStartsAppend(a: string, t: string, atStart: bool)
    ensures WordStarts(a + t, atStart) == WordStarts(a, atStart) + WordStarts(t, AtStartAfter(a, atStart))
    decreases |a|
  {
    if a == [] {
      assert a + t == t;
    } else {
      var at := a + t;
      assert at[0] == a[0] && at[1..] == a[1..] + t;
      var next := a[0] == ' ';
      WordStartsAppend(a[1..], t, next);
      var head: string := if a[0] != ' ' && atStart then [a[0]] else [];
      var x, y := WordStarts(a[1..], next), WordStarts(t, AtStartAfter(a[1..], next));
      assert WordStarts(at, atStart) == head + (x + y);
      assert head + (x + y) == (head + x) + y;
    }
  }

  /** `toUpperCase` on one character; only the ASCII letters a-z change. */
  function Upper(c: char): (u: char)
    ensures (u == ' ') <==> (c == ' ')
    ensures 'a' <= c <= 'z' ==> 'A' <= u <= 'Z' && u as int == c as int - 32
    ensures !('a' <= c <= 'z') ==> u == c
  {
    if 'a' <= c <= 'z' then (c as int - 32) as char else c
  }

  function UpperAll(s: string): (r: string)
    ensures |r| == |s|
    ensures forall i :: 0 <= i < |s| ==> r[i] == Upper(s[i])
  {
    if s == [] then [] else [Upper(s[0])] + UpperAll(s[1..])
  }

  /**
   * The avatar initials: at most two characters, each the uppercased first
   * character of a word of the name, in order.
   */
  function Initials(name: string): (r: string)
    ensures |r| == Min(MaxInitials, |WordStarts(name, true)|)
    ensures forall i :: 0 <= i < |r| ==> r[i] == Upper(WordStarts(name, true)[i])
    ensures ' ' !in r
  {
    FirstCharsAreWordStarts(name);
    var heads := UpperAll(FirstChars(Split(name)));
    heads[..Min(MaxInitials, |heads|)]
  }

  /** Empty words from runs of spaces contribute nothing: a doubled space and a leading space change no initials. */
  lemma EmptyWordsIgnored(a: string, b: string)
    ensures Initials(a + "  " + b) == Initials(a + " " + b)
    ensures Initials(" " + b) == Initials(b)
  {
    var end := AtStartAfter(a, true);
    var two, one := "  " + b, " " + b;
    assert two[0] == ' ' && two[1..] == one;
    assert one[0] == ' ' && one[1..] == b;
    assert WordStarts(one, end) == WordStarts(b, true);
    assert WordStarts(two, end) == WordStarts(b, true);
    WordStartsAppend(a, two, true);
    WordStartsAppend(a, one, true);
    assert a + "  " + b == a + two;
    assert a + " " + b == a + one;
  }

  // ---------------------------------------------------------------------------
  // The indicator strip

  /** One avatar: whose it is, its initials and its colour. */
  datatype Avatar = Avatar(userId: string, initials: string, color: string)

  /** The status line when alone, or the avatars plus the `+N` badge when there are more than five. */
  datatype Indicator =
    | StatusLine(text: string)
    | Avatars(shown: seq<Avatar>, badge: Option<nat>)

  const ConnectedText: string := "\U{1F7E2} Connected - Waiting for other users..."
  const ConnectingText: string := "\U{1F534} Connecting to presence..."

  function AvatarsOf(users: seq<PresenceUser>): (r: seq<Avatar>)
    ensures |r| == |users|
    ensures forall i :: 0 <= i < |users| ==> r[i] == Avatar(users[i].id, Initials(users[i].username), users[i].color)
  {
    if users == [] then [] else [Avatar(users[0].id, Initials(users[0].username), users[0].color)] + AvatarsOf(users[1..])
  }

  /**
   * The rendered strip. `displayUsers` is the first `min(5, n)` other users and
   * `remainingCount` the rest.
   */
  function Indicators(onlineUsers: seq<PresenceUser>, isConnected: bool, selfId: Option<string>): (r: Indicator)
    ensures var others := OtherUsers(onlineUsers, selfId);
            && (r.StatusLine? <==> others == [])
            && (r.StatusLine? ==> r.text == if isConnected then ConnectedText else ConnectingText)
            && (r.Avatars? ==> |r.shown| == Min(MaxShown, |others|))
            && (r.Avatars? ==> forall i :: 0 <= i < |r.shown| ==> r.shown[i] == Avatar(others[i].id, Initials(others[i].username), others[i].color))
            && (r.Avatars? ==> (r.badge.Some? <==> |others| > MaxShown))
            && (r.Avatars? && r.badge.Some? ==> |r.shown| + r.badge.value == |others|)
    ensures r.Avatars? ==> forall i :: 0 <= i < |r.shown| ==> Some(r.shown[i].userId) != selfId
  {
    var others := OtherUsers(onlineUsers, selfId);
    OtherUsersMembers(onlineUsers, selfId);
    if |others| == 0 then
      StatusLine(if isConnected then ConnectedText else ConnectingText)
    else
      var display := others[..Min(MaxShown, |others|)];
      var remaining := |others| - |display|;
      assert forall i :: 0 <= i < |display| ==> display[i] in others;
      Avatars(AvatarsOf(display), if remaining > 0 then Some(remaining) else None)
  }

  /**
   * Signing out empties the online list and lowers the connection flag, so the
   * strip falls back to the "connecting" status line. This is the provider's
   * sign-out branch, which the canvas page does not reach.
   */
  lemma SignedOutShowsConnecting(st: PresenceState)
    ensures var out := OnAuthChange(st, None);
            Indicators(out.onlineUsers, out.isConnected, None) == StatusLine(ConnectingText)
  {
  }
}

=== FILE: session.dfy ===
/**
 * One signed-in user as the other clients see it. The presence, lock and
 * cursor providers each derive the user's name and colour on their own; they
 * agree.
 */
module Session {
  import opened Identity
  import Throttle
  import Presence
  import ShapeLock
  import CursorTracking

  /**
   * The presence avatar, the lock outline and the cursor label of one user show
   * the same name and the same colour, the one generated from the colour key.
   */
  lemma SameLookEverywhere(u: User, sent: Throttle.Sent<CursorTracking.Point>)
    ensures var avatar, lock, cursor := Presence.CurrentUser(u), ShapeLock.LockFor(u), CursorTracking.Stamp(u, sent);
            && avatar.color == lock.color == cursor.color == GenerateColor(ColorKey(u))
            && avatar.username == lock.username == cursor.username == DisplayName(u)
  {
  }
}

=== FILE: shape_lock.dfy ===
/**
 * Soft shape locks: a map from shape id to the user holding it, kept in step
 * across clients by `lock` and `unlock` broadcasts. Locks are advisory: a
 * refused `LockShape` does not stop the caller. Incoming `lock` messages
 * overwrite (last message wins); incoming `unlock` messages only remove an
 * entry their sender holds. `lockShape` computes its answer inside a state
 * updater; the model runs that updater synchronously.
 */
module ShapeLock {
  import opened Wrappers
  import opened Identity

  /** Who holds a shape, with the name and colour its stroke is drawn in. */
  datatype Lock = Lock(userId: string, username: string, color: string)

  type LockTable = map<string, Lock>

  /** The two broadcasts of the lock channel. */
  datatype LockMsg = LockMsg(shapeId: string, lock: Lock) | UnlockMsg(shapeId: string, userId: string)

  /** The lock entry the local user broadcasts and records. */
  function LockFor(u: User): (l: Lock)
    ensures l.userId == u.id && l.username == DisplayName(u) && l.color in Palette
  {
    Lock(u.id, DisplayName(u), UserColor(u))
  }

  /** `isLocked(id)` */
  predicate IsLocked(t: LockTable, shapeId: string)
  {
    shapeId in t
  }

  /** `getShapeLock(id)`: the entry, or nothing; defined exactly when the shape is locked. */
  function GetShapeLock(t: LockTable, shapeId: string): (r: Option<Lock>)
    ensures r.Some? <==> IsLocked(t, shapeId)
    ensures r.Some? ==> r.value == t[shapeId]
  {
    if shapeId in t then Some(t[shapeId]) else None
  }

  /** An incoming `lock`: the entry for that shape becomes the message's, whoever held it before. */
  function OnLock(t: LockTable, shapeId: string, lock: Lock): (r: LockTable)
    ensures r.Keys == t.Keys + {shapeId}
    ensures r[shapeId] == lock
    ensures forall s :: s in t && s != shapeId ==> r[s] == t[s]
  {
    t[shapeId := lock]
  }

  /** An incoming `unlock`: removes the entry only when the sender is its holder. */
  function OnUnlock(t: LockTable, shapeId: string, userId: string): (r: LockTable)
    ensures shapeId in t && t[shapeId].userId == userId ==> r.Keys == t.Keys - {shapeId}
    ensures !(shapeId in t && t[shapeId].userId == userId) ==> r == t
    ensures forall s :: s in r ==> s in t && r[s] == t[s]
  {
    if shapeId in t && t[shapeId].userId == userId then t - {shapeId} else t
  }

  /** Dispatches a received broadcast. */
  function Receive(t: LockTable, m: LockMsg): LockTable
  {
    match m
    case LockMsg(s, l) => OnLock(t, s, l)
    case UnlockMsg(s, u) => OnUnlock(t, s, u)
  }

  /** `lockShape`'s answer, the table after its updater, and what it broadcast. */
  datatype LockResult = LockResult(granted: bool, table: LockTable, sent: seq<LockMsg>)

  /**
   * `lockShape(id)`. With no channel or no user it answers yes and does
   * nothing. A free shape is recorded for the local user and a `lock` is sent;
   * a shape the local user holds is re-granted silently; a shape someone else
   * holds is refused. No existing entry is ever replaced.
   */
  function LockShape(channel: bool, user: Option<User>, t: LockTable, shapeId: string): (r: LockResult)
    ensures !channel || user.None? ==> r == LockResult(true, t, [])
    ensures forall s :: s in t ==> s in r.table && r.table[s] == t[s]
    ensures r.table.Keys <= t.Keys + {shapeId}
    ensures channel && user.Some? ==> (r.granted <==> shapeId !in t || t[shapeId].userId == user.value.id)
    ensures channel && user.Some? && r.granted ==> shapeId in r.table && r.table[shapeId].userId == user.value.id
    ensures r.sent != [] <==> channel && user.Some? && shapeId !in t
    ensures r.sent != [] ==> r.sent == [LockMsg(shapeId, LockFor(user.value))] && r.table == t[shapeId := LockFor(user.value)]
  {
    if !channel || user.None? then LockResult(true, t, [])
    else if shapeId in t then LockResult(t[shapeId].userId == user.value.id, t, [])
    else
      var l := LockFor(user.value);
      LockResult(true, t[shapeId := l], [LockMsg(shapeId, l)])
  }

  /** The table after `unlockShape`'s updater, and what it broadcast. */
  datatype UnlockResult = UnlockResult(table: LockTable, sent: seq<LockMsg>)

  /** `unlockShape(id)`: releases the shape and sends `unlock` only when the local user holds it. */
  function UnlockShape(channel: bool, user: Option<User>, t: LockTable, shapeId: string): (r: UnlockResult)
    ensures var mine := channel && user.Some? && shapeId in t && t[shapeId].userId == user.value.id;
            && (mine ==> r.table.Keys == t.Keys - {shapeId} && r.sent == [UnlockMsg(shapeId, user.value.id)])
            && (!mine ==> r == UnlockResult(t, []))
    ensures forall s :: s in r.table ==> s in t && r.table[s] == t[s]
  {
    if channel && user.Some? && shapeId in t && t[shapeId].userId == user.value.id then
      UnlockResult(t - {shapeId}, [UnlockMsg(shapeId, user.value.id)])
    else
      UnlockResult(t, [])
  }

  /** Applies received broadcasts in order. */
  function ReceiveAll(t: LockTable, ms: seq<LockMsg>): LockTable
    decreases |ms|
  {
    if ms == [] then t else ReceiveAll(Receive(t, ms[0]), ms[1..])
  }

  /**
   * A peer whose table agrees with ours before a `lockShape` or `unlockShape`
   * reaches the same table after receiving what the call broadcast.
   */
  lemma PeersAgreeAfterBroadcast(channel: bool, user: Option<User>, t: LockTable, shapeId: string)
    ensures var r := LockShape(channel, user, t, shapeId); ReceiveAll(t, r.sent) == r.table
    ensures var r := UnlockShape(channel, user, t, shapeId); ReceiveAll(t, r.sent) == r.table
  {
  }

  /** Locking a free shape and unlocking it again gives back the original table. */
  lemma LockUnlockRoundTrip(user: User, t: LockTable, shapeId: string)
    requires shapeId !in t
    ensures var locked := LockShape(true, Some(user), t, shapeId);
            var unlocked := UnlockShape(true, Some(user), locked.table, shapeId);
            && locked.granted
            && unlocked.table == t
            && locked.sent + unlocked.sent == [LockMsg(shapeId, LockFor(user)), UnlockMsg(shapeId, user.id)]
  {
  }

  /**
   * Exclusivity: once user A holds a shape, user B can neither take it
   * (`lockShape` refuses), release it locally (`unlockShape` does nothing) nor
   * release it remotely (B's `unlock` is ignored).
   */
  lemma HolderKeepsLock(a: User, b: User, t: LockTable, shapeId: string)
    requires a.id != b.id
    requires shapeId !in t
    ensures var held := LockShape(true, Some(a), t, shapeId).table;
            && IsLocked(held, shapeId) && GetShapeLock(held, shapeId).value.userId == a.id
            && !LockShape(true, Some(b), held, shapeId).granted
            && LockShape(true, Some(b), held, shapeId).table == held
            && UnlockShape(true, Some(b), held, shapeId).table == held
            && OnUnlock(held, shapeId, b.id) == held
  {
  }

  /**
   * Signing out (no user) empties the table; a new session keeps it.
   * The canvas page mounts this provider only while a user is signed in, so the
   * sign-out branch does not run while the canvas is shown; it is modelled as written.
   */
  function OnAuthChange(t: LockTable, user: Option<User>): (r: LockTable)
    ensures user.None? ==> r == map[]
    ensures user.Some? ==> r == t
  {
    if user.None? then map[] else t
  }

  /**
   * The best-effort `unlock`s sent when the lock channel is torn down: one for
   * every entry of `t` held by `userId`, in `keys`, the order the map
   * enumerates its keys in.
   */
  function TeardownUnlocks(t: LockTable, userId: string, keys: seq<string>): (r: seq<LockMsg>)
    ensures forall m :: m in r ==> m.UnlockMsg? && m.userId == userId && m.shapeId in keys && m.shapeId in t && t[m.shapeId].userId == userId
    ensures forall s :: s in keys && s in t && t[s].userId == userId ==> UnlockMsg(s, userId) in r
    ensures (forall s :: s in t ==> t[s].userId != userId) ==> r == []
  {
    if keys == [] then []
    else
      var head := if keys[0] in t && t[keys[0]].userId == userId then [UnlockMsg(keys[0], userId)] else [];
      head + TeardownUnlocks(t, userId, keys[1..])
  }

  /**
   * A `Map` enumerates each key once, so the teardown never unlocks a shape
   * twice: its messages are pairwise distinct.
   */
  lemma {:induction false} TeardownUnlocksDistinct(t: LockTable, userId: string, keys: seq<string>)
    requires forall i, j :: 0 <= i < j < |keys| ==> keys[i] != keys[j]
    ensures forall i, j :: 0 <= i < j < |TeardownUnlocks(t, userId, keys)| ==>
              TeardownUnlocks(t, userId, keys)[i] != TeardownUnlocks(t, userId, keys)[j]
    decreases |keys|
  {
    if keys != [] {
      var rest := keys[1..];
      var tail := TeardownUnlocks(t, userId, rest);
      TeardownUnlocksDistinct(t, userId, rest);
      if keys[0] in t && t[keys[0]].userId == userId {
        var m := UnlockMsg(keys[0], userId);
        assert m !in tail by {
          assert keys[0] !in rest;
        }
        var r := [m] + tail;
        assert TeardownUnlocks(t, userId, keys) == r;
        forall i, j | 0 <= i < j < |r| ensures r[i] != r[j] {
          assert r[j] == tail[j - 1];
          if i > 0 {
            assert r[i] == tail[i - 1];
          }
        }
      }
    }
  }

  /** `p` without the entries of `keys` that `userId` holds. */
  function Without(p: LockTable, userId: string, keys: seq<string>): LockTable
  {
    map s | s in p && !(s in keys && p[s].userId == userId) :: p[s]
  }

  lemma WithoutHeldHead(p: LockTable, userId: string, keys: seq<string>)
    requires keys != []
    requires keys[0] in p ==> p[keys[0]].userId == userId
    ensures Without(p - {keys[0]}, userId, keys[1..]) == Without(p, userId, keys)
  {
  }

  lemma WithoutFreeHead(p: LockTable, userId: string, keys: seq<string>)
    requires keys != []
    requires keys[0] in p ==> p[keys[0]].userId != userId
    ensures Without(p, userId, keys[1..]) == Without(p, userId, keys)
  {
  }

  /**
   * A peer whose entries all agree with `t` ends up, after receiving the
   * teardown `unlock`s computed from `t`, without exactly the listed entries
   * held by `userId`.
   */
  lemma {:induction false} ReceiveTeardownUnlocks(p: LockTable, t: LockTable, userId: string, keys: seq<string>)
    requires forall s :: s in p ==> s in t && p[s] == t[s]
    ensures ReceiveAll(p, TeardownUnlocks(t, userId, keys)) == Without(p, userId, keys)
    decreases |keys|
  {
    if keys == [] {
      assert Without(p, userId, keys) == p;
    } else {
      var k := keys[0];
      var msgs := TeardownUnlocks(t, userId, keys);
      var tail := TeardownUnlocks(t, userId, keys[1..]);
      if k in t && t[k].userId == userId {
        assert msgs == [UnlockMsg(k, userId)] + tail;
        assert msgs[0] == UnlockMsg(k, userId) && msgs[1..] == tail;
        var p' := p - {k};
        assert Receive(p, UnlockMsg(k, userId)) == p';
        ReceiveTeardownUnlocks(p', t, userId, keys[1..]);
        WithoutHeldHead(p, userId, keys);
      } else {
        assert msgs == tail;
        ReceiveTeardownUnlocks(p, t, userId, keys[1..]);
        WithoutFreeHead(p, userId, keys);
      }
    }
  }

  /**
   * Teardown over the table as it is now releases everything the leaving user
   * holds on a peer that agrees with it, and keeps every other user's locks.
   */
  lemma TeardownReleasesAll(t: LockTable, userId: string, keys: seq<string>)
    requires forall s :: s in t ==> s in keys
    ensures var after := ReceiveAll(t, TeardownUnlocks(t, userId, keys));
            && (forall s :: s in after <==> s in t && t[s].userId != userId)
            && (forall s :: s in after ==> after[s] == t[s])
  {
    ReceiveTeardownUnlocks(t, t, userId, keys);
  }

  /**
   * The source's teardown iterates the table captured when the channel effect
   * first ran. The provider is mounted only while a user is signed in, so that
   * run happens at sign-in and captures the provider's initial empty table
   * (ShapeLockContext.tsx:40). A user who signs in, locks a free shape and signs
   * out sends no `unlock`, and peers keep the shape locked by a user who is gone.
   */
  lemma TeardownOverCapturedTable(u: User, shapeId: string, keys: seq<string>)
    ensures var captured: LockTable := map[];
            var current := LockShape(true, Some(u), captured, shapeId).table;
            var sent := TeardownUnlocks(captured, u.id, keys);
            && sent == []
            && IsLocked(ReceiveAll(current, sent), shapeId)
            && ReceiveAll(current, sent)[shapeId].userId == u.id
  {
  }
}

=== FILE: throttle.dfy ===
/**
 * The 50 ms broadcast throttler used twice by the whiteboard: once for shape
 * drag positions and once for the local cursor. It keeps the time of the last
 * send and a single pending slot. A call inside the window overwrites the slot
 * (newest value wins, nothing is queued); a periodic tick sends the slot once
 * the window has passed. The clock is an explicit `now` and every send is
 * reported in an output log.
 */
module Throttle {
  import opened Wrappers

  /** The minimum spacing between two sends, in milliseconds. */
  const ThrottleMs: int := 50

  /** `lastBroadcastTime` and the pending slot. */
  datatype Throttler<T> = Throttler(lastSend: int, pending: Option<T>)

  /** One outbound message: the value sent and the clock reading it was sent at. */
  datatype Sent<T> = Sent(at: int, value: T)

  /** The throttler after one operation and what that operation sent. */
  datatype Step<T> = Step(next: Throttler<T>, out: seq<Sent<T>>)

  /** Both refs start empty: last send at time 0, nothing pending. */
  function Initial<T>(): Throttler<T>
  {
    Throttler(0, None)
  }

  /**
   * A broadcast call at time `now`. `connected` is "the channel exists and a
   * user is signed in"; without it the call does nothing at all.
   */
  function Submit<T>(t: Throttler<T>, connected: bool, now: int, v: T): (r: Step<T>)
    ensures !connected ==> r == Step(t, [])
    ensures |r.out| <= 1
    ensures connected ==> r.out == [Sent(now, v)] || (r.out == [] && r.next.pending == Some(v))
    ensures connected && now - t.lastSend < ThrottleMs ==> r.out == [] && r.next.lastSend == t.lastSend
    ensures connected && t.lastSend + ThrottleMs <= now ==> r.out == [Sent(now, v)]
    ensures r.out != [] ==> t.lastSend + ThrottleMs <= now && r.next == Throttler(now, None)
    ensures r.out == [] ==> r.next.lastSend == t.lastSend
  {
    if !connected then Step(t, [])
    else if now - t.lastSend < ThrottleMs then Step(t.(pending := Some(v)), [])
    else Step(Throttler(now, None), [Sent(now, v)])
  }

  /** The periodic flush: sends the pending value only once the window has passed. */
  function Tick<T>(t: Throttler<T>, connected: bool, now: int): (r: Step<T>)
    ensures |r.out| <= 1
    ensures r.out != [] <==> connected && t.pending.Some? && t.lastSend + ThrottleMs <= now
    ensures r.out != [] ==> r.out == [Sent(now, t.pending.value)] && r.next == Throttler(now, None)
    ensures r.out == [] ==> r.next == t
  {
    if t.pending.Some? && connected && now - t.lastSend >= ThrottleMs then
      Step(Throttler(now, None), [Sent(now, t.pending.value)])
    else
      Step(t, [])
  }

  /** What drives a throttler: a broadcast call or a flush tick, each at a clock reading. */
  datatype Input<T> = Call(now: int, v: T) | Flush(now: int)

  function Apply<T>(t: Throttler<T>, connected: bool, i: Input<T>): Step<T>
  {
    match i
    case Call(now, v) => Submit(t, connected, now, v)
    case Flush(now) => Tick(t, connected, now)
  }

  /** Feeds the inputs in order, concatenating everything sent. */
  function Run<T>(t: Throttler<T>, connected: bool, ins: seq<Input<T>>): Step<T>
    decreases |ins|
  {
    if ins == [] then Step(t, [])
    else
      var s := Apply(t, connected, ins[0]);
      var rest := Run(s.next, connected, ins[1..]);
      Step(rest.next, s.out + rest.out)
  }

  /** Every send is at least `ThrottleMs` after the one before it, the first one at least `ThrottleMs` after `start`. */
  ghost predicate SpacedAfter<T>(start: int, log: seq<Sent<T>>)
  {
    && (log != [] ==> start + ThrottleMs <= log[0].at)
    && forall i :: 0 < i < |log| ==> log[i - 1].at + ThrottleMs <= log[i].at
  }

  /** At most one send followed by a log spaced after it is spaced as a whole. */
  lemma SpacedPrefix<T>(start: int, first: seq<Sent<T>>, rest: seq<Sent<T>>)
    requires |first| <= 1
    requires first != [] ==> start + ThrottleMs <= first[0].at
    requires SpacedAfter(if first == [] then start else first[0].at, rest)
    ensures SpacedAfter(start, first + rest)
  {
  }

  /** One call or tick sends at most once, only after the window, and a send becomes the new last-send time. */
  lemma ApplyStep<T>(t: Throttler<T>, connected: bool, i: Input<T>)
    ensures var s := Apply(t, connected, i);
            && |s.out| <= 1
            && (s.out != [] ==> t.lastSend + ThrottleMs <= s.out[0].at && s.next.lastSend == s.out[0].at)
            && (s.out == [] ==> s.next.lastSend == t.lastSend)
  {
  }

  /** After any inputs, the throttler's last-send time is the time of the last send, if there was one. */
  lemma {:induction false} RunLastSend<T>(t: Throttler<T>, connected: bool, ins: seq<Input<T>>)
    ensures var r := Run(t, connected, ins);
            r.next.lastSend == if r.out == [] then t.lastSend else r.out[|r.out| - 1].at
    decreases |ins|
  {
    if ins != [] {
      var s := Apply(t, connected, ins[0]);
      var rest := Run(s.next, connected, ins[1..]);
      ApplyStep(t, connected, ins[0]);
      RunLastSend(s.next, connected, ins[1..]);
      var log := s.out + rest.out;
      if rest.out != [] {
        assert log[|log| - 1] == rest.out[|rest.out| - 1];
      } else {
        assert log == s.out;
      }
    }
  }

  /**
   * Throttle spacing: whatever the inputs and whatever the clock does, two
   * consecutive sends are at least 50 ms apart, the first at least 50 ms after
   * the throttler's last send.
   */
  lemma {:induction false} RunIsSpaced<T>(t: Throttler<T>, connected: bool, ins: seq<Input<T>>)
    ensures SpacedAfter(t.lastSend, Run(t, connected, ins).out)
    decreases |ins|
  {
    if ins != [] {
      var s := Apply(t, connected, ins[0]);
      var rest := Run(s.next, connected, ins[1..]);
      ApplyStep(t, connected, ins[0]);
      RunIsSpaced(s.next, connected, ins[1..]);
      SpacedPrefix(t.lastSend, s.out, rest.out);
    }
  }

  /** Inputs that are all broadcast calls made inside the window `[w, w + ThrottleMs)`. */
  ghost predicate CallsWithin<T>(ins: seq<Input<T>>, w: int)
  {
    forall i :: 0 <= i < |ins| ==> ins[i].Call? && w <= ins[i].now < w + ThrottleMs
  }

  /** After a send inside the window, every further call of the burst is held back and overwrites the slot. */
  lemma {:induction false} BurstAfterSendIsHeld<T>(t: Throttler<T>, ins: seq<Input<T>>, w: int)
    requires CallsWithin(ins, w)
    requires w <= t.lastSend
    ensures Run(t, true, ins).out == []
    ensures Run(t, true, ins).next.lastSend == t.lastSend
    ensures ins != [] ==> Run(t, true, ins).next.pending == Some(ins[|ins| - 1].v)
    ensures ins == [] ==> Run(t, true, ins).next == t
    decreases |ins|
  {
    if ins != [] {
      var s := Apply(t, true, ins[0]);
      assert CallsWithin(ins[1..], w) by {
        forall i | 0 <= i < |ins[1..]| ensures ins[1..][i] == ins[i + 1] { }
      }
      BurstAfterSendIsHeld(s.next, ins[1..], w);
      if |ins| > 1 {
        assert ins[1..][|ins[1..]| - 1] == ins[|ins| - 1];
      }
    }
  }

  /**
   * Coalescing: a burst of broadcast calls inside one 50 ms window sends at most
   * one message, and the last call's value is not lost: it is either that
   * message or still waiting in the pending slot.
   */
  lemma {:induction false} BurstCoalesces<T>(t: Throttler<T>, ins: seq<Input<T>>, w: int)
    requires CallsWithin(ins, w)
    requires ins != []
    ensures var r := Run(t, true, ins);
            && |r.out| <= 1
            && (r.next.pending == Some(ins[|ins| - 1].v)
                || (r.next.pending == None && r.out == [Sent(ins[|ins| - 1].now, ins[|ins| - 1].v)]))
    decreases |ins|
  {
    var s := Apply(t, true, ins[0]);
    var tail := ins[1..];
    assert CallsWithin(tail, w) by {
      forall i | 0 <= i < |tail| ensures tail[i] == ins[i + 1] { }
    }
    if tail != [] {
      assert tail[|tail| - 1] == ins[|ins| - 1];
      if s.out != [] {
        BurstAfterSendIsHeld(s.next, tail, w);
      } else {
        BurstCoalesces(s.next, tail, w);
      }
    }
  }
}

=== FILE: wrappers.dfy ===
/** Optional values: the model's stand-in for TypeScript's `T | undefined` and `T | null`. */
module Wrappers {

  datatype Option<+T> = None | Some(value: T)
}
